=== FILE: README.md ===
# RTSP handshake and audio FEC of the wolf streaming host

A Dafny model of the two parts of the wolf game-streaming host that carry its invariants:

- the **RTSP-dialect packet codec**. `rtsp::parse` turns a raw control message into a request
  or response packet: a start line, the mandatory `CSeq` number, keyed options and ordered
  payload lines. It fails when a message is malformed. `rtsp::to_string` writes a packet back
  in canonical form;
- the **command dispatcher**. It answers one parsed request from the client's session
  configuration and the connection's own state. OPTIONS, DESCRIBE, SETUP of an audio, video
  or control stream, and ANNOUNCE are answered 200; everything else is answered 404;
- the **audio forward-error-correction shard configuration**. It has 4 data shards and 2
  parity shards, a maximum block size of 1400 bytes, a fixed 2 x 4 parity coefficient matrix,
  and a 16-bit wrapping frame sequence number. The model also covers the shard sets built
  from it: zero padding, cutting into blocks of the maximum size, parity shards of the same
  length, reassembly, and loss detection.

The parser and dispatcher implementations are not part of this model. The model follows the
design of the RTSP dialect and the fixtures in `tests/testRTSP.cpp`; where neither of them
settles a detail, the model makes its own choice, and "## Left out" lists those choices. Module `Scenarios` states each message
fixture as a lemma over the fixture's raw text, with its exact mix of `\n` and `\r\n` line
endings: the text parses to the expected packet, and for a command fixture the dispatcher's
answer to that packet has the asserted fields. The general laws behind them are proved for
all inputs: the round trip, rejection without `CSeq`, and line-ending indifference in
`CodecLaws`, and the command table laws in `Commands`.

Files:

- `wrappers.dfy`: `Option` and `Result`.
- `text.dfy`: lines, trimming, decimal numerals and line-ending joins.
- `packet.dfy`: the packet datatype, options as an insertion-ordered map, and the validity
  predicates that say which packets the wire form can carry.
- `codec.dfy`: reading and writing.
- `codec_laws.dfy`: round-trip and rejection laws.
- `commands.dfy`: the session configuration, the command table, the dispatcher and a
  connection loop.
- `audio_fec.dfy`: the shard configuration and the shard sets.
- `scenarios.dfy`: the fixtures.

## Model

| member | source | states |
|---|---|---|
| Codec.Parse | tests/testRTSP.cpp:57-73 | whatever the parser accepts is a valid packet: every field survives being written out and read back |
| Codec.ParseTarget | tests/testRTSP.cpp:62-66 | a target read from one token is a valid URI or stream target |
| Codec.ParseAddress | tests/testRTSP.cpp:64-66 | the address of a URI target is a non-empty token without a colon; the port is below 65536 |
| Codec.ParseStartLine | tests/testRTSP.cpp:61-63 | a head read from one line is a valid request or a response with a three-digit code |
| Codec.ReadHeader | tests/testRTSP.cpp:116-118 | storing a header line as an option keeps the option list valid (distinct, trimmed, one-line keys) |
| Codec.ReadPayloads | tests/testRTSP.cpp:120-125 | every payload pair read from one-line body lines is a valid pair |
| Packet.Put | tests/testRTSP.cpp:116-118 | after storing, the key maps to the new value; every other key keeps its value; the key set grows by exactly that key |
| Packet.PutFresh | tests/testRTSP.cpp:116-118 | a new key is appended behind the existing options, so insertion order is kept |
| Packet.GetIffKey | tests/testRTSP.cpp:116-118 | a key has a value exactly when it is one of the stored keys |
| Packet.PutValid | tests/testRTSP.cpp:116-118 | storing a valid entry keeps an option list valid |
| Text.NatRoundTrip | tests/testRTSP.cpp:66-67 | a written numeral reads back as the same number |
| CodecLaws.StreamTargetRoundTrip | tests/testRTSP.cpp:82-85 | `streamid=<type>/<params>` reads back with the type cut at the first `/` and the parameters keeping their leading `/` |
| CodecLaws.UriTargetRoundTrip | tests/testRTSP.cpp:62-66 | `<protocol>://<ip>:<port>` reads back as the same protocol, address and port |
| CodecLaws.TargetRoundTrip | tests/testRTSP.cpp:62-66 | every valid target is written as a single token and read back unchanged |
| CodecLaws.RequestLineRoundTrip | tests/testRTSP.cpp:61-63 | a request line reads back as the same verb and target, and is never taken for a status line |
| CodecLaws.StatusLineRoundTrip | tests/testRTSP.cpp:169-171 | a status line reads back as the same code and the whole message, spaces included |
| CodecLaws.StartLineRoundTrip | tests/testRTSP.cpp:143-147 | the start line of a valid head is one line and reads back as that head |
| CodecLaws.OptionLinesRead | tests/testRTSP.cpp:116-118 | the `key: value` lines of distinct options read back as those options, in order |
| CodecLaws.SeqLineRead | tests/testRTSP.cpp:67 | the `CSeq` line sets the sequence number and stores no option |
| CodecLaws.HeaderBlockRead | tests/testRTSP.cpp:114-118 | a `CSeq` line followed by option lines gives back the number and the options |
| CodecLaws.PaddedHeaderRead | tests/testRTSP.cpp:278-279 | an option line with any run of blanks after its colon reads like the line with one blank, wherever it stands in the header block |
| CodecLaws.MessageRead | tests/testRTSP.cpp:314-322 | a start line, header lines and an empty line, each with its own choice of `\n` or `\r\n`, followed by any body, parse to the head, the header's number and options, and the body's payload lines |
| CodecLaws.PayloadLineSplit | tests/testRTSP.cpp:124-125 | a body line splits at its first `=` or `:`; later separators stay in the value |
| CodecLaws.PayloadLinesRead | tests/testRTSP.cpp:120-125 | the body lines of valid payload pairs read back as those pairs, in order |
| CodecLaws.EmptyLineCarriesNothing | tests/testRTSP.cpp:101-105 | a trailing empty body line adds no payload |
| CodecLaws.RoundTrip | tests/testRTSP.cpp:72-73 | writing a valid packet and reading it back gives the same packet |
| CodecLaws.ReparseStable | tests/testRTSP.cpp:186 | for every packet the parser returns, its wire form re-parses to itself and is written out identically again |
| CodecLaws.MissingSeqRejected | tests/testRTSP.cpp:51-53 | a message whose header block has no `CSeq` line is rejected, request or response alike |
| CodecLaws.SingleLineRejected | tests/testRTSP.cpp:133-135 | a message on one line has no `CSeq` and is rejected |
| CodecLaws.SeqNeverAnOption | tests/testRTSP.cpp:69 | the sequence number never appears among the options of a parsed packet |
| CodecLaws.LineEndingIrrelevant | tests/testRTSP.cpp:96-100 | replacing a `\r\n` line ending with `\n` changes nothing that is read, wherever the line it ends does not itself end in `\r` |
| CodecLaws.FinalNewlineIrrelevant | tests/testRTSP.cpp:104-105 | a line break after the last line changes nothing that is read |
| CodecLaws.TrailingBlankLine | tests/testRTSP.cpp:100-105 | an extra empty last line changes nothing that is read, whether or not a body has begun |
| CodecLaws.AnyLineEndings | tests/testRTSP.cpp:95-128 | a valid packet written with any mix of `\n` and `\r\n` endings reads back as itself |
| CodecLaws.UnterminatedLastLine | tests/testRTSP.cpp:95-128 | the same holds when the last line has no line ending |
| Scenarios.RequestWithoutSeqRejected | tests/testRTSP.cpp:51-54 | a request line alone is not a packet |
| Scenarios.ResponseWithoutSeqRejected | tests/testRTSP.cpp:133-136 | a status line alone is not a packet |
| Scenarios.BasicRequestParsed | tests/testRTSP.cpp:56-74 | the basic request parses to verb `MissingNo`, URI `rtsp`/`1.1.1.1`/1234, sequence 1993, no options, no payloads |
| Scenarios.StreamRequestParsed | tests/testRTSP.cpp:76-93 | the stream request parses to stream type `audio` with parameters `/1/2/3`, sequence 1993 |
| Scenarios.BasicResponseParsed | tests/testRTSP.cpp:138-154 | the basic response parses to code 200, message `OK`, sequence 123, nothing else |
| Scenarios.CompleteRequestParsed | tests/testRTSP.cpp:95-129 | the complete request with mixed line endings parses to OPTIONS on `rtsp://10.1.2.49:48010`, sequence 1, the two options and the five description pairs |
| Scenarios.CompleteResponseParsed | tests/testRTSP.cpp:156-187 | the complete response parses to code 404, message `NOT OK`, sequence 1, the same options and pairs |
| Scenarios.StereoSurround | tests/testRTSP.cpp:191-206 | the stereo session's surround parameters are `21101` |
| Scenarios.MissingNoAnswered | tests/testRTSP.cpp:215-223 | the raw `MissingNo` request parses to that verb on `rtsp://10.1.2.49:48010` with sequence 1 and no options, and is answered 404 with sequence 1 |
| Scenarios.OptionsAnswered | tests/testRTSP.cpp:225-236 | the raw OPTIONS request parses with sequence 1 and the options `X-GS-ClientVersion` and `Host`, and is answered 200 with sequence 1 |
| Scenarios.DescribeAnswered | tests/testRTSP.cpp:238-253 | the raw DESCRIBE request, with `\n` endings up to `Accept`, parses with sequence 2 and three options, and is answered 200 with sequence 2, `sprop-parameter-sets=AAAAAU` first and `fmtp:97 surround-params=21101` second |
| Scenarios.SetupAudioAnswered | tests/testRTSP.cpp:255-272 | the raw SETUP of `streamid=audio/0/0` parses with sequence 3 and four options, and is answered 200 with sequence 3, `Session` `DEADBEEFCAFE;timeout = 90` and `Transport` `server_port=3` |
| Scenarios.SetupVideoAnswered | tests/testRTSP.cpp:274-292 | the raw SETUP of `streamid=video/0/0` parses with sequence 4 and the claimed `Session` between `Host` and `Transport`, its two blanks trimmed, and is answered 200 with sequence 4, the same token and `server_port=4` |
| Scenarios.SetupControlAnswered | tests/testRTSP.cpp:294-312 | the raw SETUP of `streamid=control/0/0` parses likewise with sequence 5, and is answered 200 with sequence 5, the same token and `server_port=2` |
| Scenarios.AnnounceAnswered | tests/testRTSP.cpp:314-366 | the raw ANNOUNCE header of `streamid=control/13/0`, followed by any body, parses with sequence 6, the five options and the body's payload lines, and is answered 200 with sequence 6 and one stream-ready event for session 1234 |
| Commands.Handle | tests/testRTSP.cpp:215-366 | every answer is a valid response with the request's `CSeq`; the connection becomes established exactly by a SETUP; ANNOUNCE publishes exactly one stream-ready event and nothing else publishes any |
| Commands.NotFoundIffUnrecognised | tests/testRTSP.cpp:215-236 | the answer is 404, with no options and no payloads, exactly when the verb is not recognised, and 200 otherwise |
| Commands.SetupAnswer | tests/testRTSP.cpp:255-312 | SETUP of audio, video or control answers 200 with the dispatcher's token and the port of that stream, whatever token the client claims |
| Commands.DescribeAnswer | tests/testRTSP.cpp:238-253 | DESCRIBE answers 200 with the parameter sets first and the session's surround parameters second |
| Commands.VerbCaseInsensitive | tests/testRTSP.cpp:215-236 | two verbs with the same upper case get the same answer; this follows the design's case-insensitive dispatch, since these fixtures send only upper-case verbs |
| Commands.HeadersIgnored | tests/testRTSP.cpp:274-292 | the client's options and body, a claimed `Session` token included, do not change the answer |
| Commands.ReplyRoundTrip | tests/testRTSP.cpp:218-222 | every answer, written out and read back by the client, is the same packet |
| Commands.HandleAnswers | tests/testRTSP.cpp:215-312 | every answer carries the request's `CSeq`, is a 404 exactly for unrecognised verbs, and for SETUP carries the token |
| Commands.Serve | tests/testRTSP.cpp:208-213 | on one connection every request gets its own answer in order; the connection is established exactly when some SETUP came; one stream-ready event is published per ANNOUNCE |
| AudioFec.AudioShape | src/streaming/streaming/gst-plugin/gstrtpmoonlightpay_audio.hpp:7-17 | the audio configuration has 4 data and 2 parity shards (6 in all), a maximum block size of 1400 bytes, at most 5600 payload bytes per frame, and its 8 coefficients are two rows of four, `77 40 38 0e` then `c7 a7 0d 6c` |
| AudioFec.RowsMakeMatrix | src/streaming/streaming/gst-plugin/gstrtpmoonlightpay_audio.hpp:12-17 | the parity rows, one after the other, are exactly the coefficient matrix |
| AudioFec.Packetize | src/streaming/streaming/gst-plugin/gstrtpmoonlightpay_audio.hpp:7-10 | a payload too large for the data shards is rejected; any other payload gives data shards of one block each, then one parity shard per coefficient row holding, position by position, the code of the data blocks under that row; every shard is exactly one block size long, and the data shards together are the payload followed by zero bytes |
| AudioFec.ParityFollowsData | src/streaming/streaming/gst-plugin/gstrtpmoonlightpay_audio.hpp:12-17 | two well-formed shard sets with the same data shards have the same shards: parity is a function of the fixed matrix and the data |
| AudioFec.AudioFrame | src/streaming/streaming/gst-plugin/gstrtpmoonlightpay_audio.hpp:7-17 | an audio frame of at most 5600 bytes is accepted and goes out as 6 shards, each padded to the maximum block size of 1400 bytes: 4 data shards, then the codes under the rows `77 40 38 0e` and `c7 a7 0d 6c` |
| AudioFec.PacketizeRoundTrip | src/streaming/streaming/gst-plugin/gstrtpmoonlightpay_audio.hpp:7-10 | every payload that fits comes back unchanged from the data shards, without its padding |
| AudioFec.ConcatBlocks | src/streaming/streaming/gst-plugin/gstrtpmoonlightpay_audio.hpp:10 | the blocks, put back together, are the padded payload |
| AudioFec.Next | src/streaming/streaming/gst-plugin/gstrtpmoonlightpay_audio.hpp:35 | the 16-bit frame counter steps by one and wraps from 65535 to 0 |
| AudioFec.AdvanceStep | src/streaming/streaming/gst-plugin/gstrtpmoonlightpay_audio.hpp:35 | advancing by one more frame is one more counter step; after 65536 frames the counter is back where it started |
| AudioFec.PacketizeFrames | src/streaming/streaming/gst-plugin/gstrtpmoonlightpay_audio.hpp:35-43 | a run of frames is rejected as a whole exactly when one is too large; otherwise each gets a well-formed shard set numbered consecutively modulo 65536 that reassembles to it |
| AudioFec.EmitFound | src/streaming/streaming/gst-plugin/gstrtpmoonlightpay_audio.hpp:43 | a receiver of a whole frame sees exactly the shard indices from 0 below the shard count; every packet carries that count and the frame number, and the packet found for index `i` holds shard `i` |
| AudioFec.LossDetected | src/streaming/streaming/gst-plugin/gstrtpmoonlightpay_audio.hpp:43 | the shard indices received for a frame are exactly the ones not lost |
| AudioFec.ParityLossRecovered | src/streaming/streaming/gst-plugin/gstrtpmoonlightpay_audio.hpp:7-9 | when only parity shards are lost, the frame is recovered unchanged from the data shards |

## Left out

- Socket I/O (`tcp_connection`, the asio event loop) and the chunked reassembly of long
  messages in `receive_message` are left out. The model starts from a complete raw message
  and ends with the response packet.
- The event bus is reduced to the list of events a request publishes; only the stream-ready
  event of ANNOUNCE is modelled.
- The session's AES keys (`gcm_key`, `gcm_iv_key`), `unique_id` and application descriptor
  are left out, as is the crypto service of `include/moonlight/crypto.hpp`. No answer in the
  fixtures depends on them.
- The display mode is carried but unused: no fixture shows an answer that depends on it.
- Commands.Handle: a SETUP on video or control is not refused when no earlier SETUP issued
  the token. The video and control fixtures (tests/testRTSP.cpp:274-312) each run on a fresh
  connection and are answered 200, and the model follows them.
- Commands.Handle: the status messages `OK` and `NOT FOUND` are chosen by the model. The
  fixtures check only the codes.
- Commands.SurroundParams: speakers beyond front-left and front-right are numbered in
  declaration order. Only the stereo layout (ordinals 0 and 1) is fixed by the fixtures.
- Commands.Handle: the ANNOUNCE answer does not depend on `Content-length` or on the
  description body. Reading the body across several reads is part of the left-out
  reassembly.
- Scenarios.AnnounceAnswered is stated for every body, so the fixture's SDP description
  lines are not written out; the answer does not depend on them.
- AudioFec.Packetize: every frame is padded with zero bytes to the full capacity of 4 blocks of
  the maximum size, 1400 bytes, and cut into consecutive blocks. The header fixes only the
  maximum, and the payloader's own code is not part of this model, so the model does not
  split a short frame evenly over the data shards: a 200-byte frame fills the start of shard
  0 and leaves shards 1 to 3 all zero.
- AudioFec.ParityLossRecovered: the Reed-Solomon arithmetic over GF(2^8) is not modelled.
  The parity code is a parameter: an arbitrary function that gives the parity byte at one
  position from one coefficient row and the data bytes at that position. So recovery is
  proved only for the loss of parity shards, not for the loss of data shards.
- Audio encryption (`encrypt`, `aes_key`, `aes_iv`), `packet_duration`, the RTP header bytes
  and the GStreamer element glue of the audio payloader are left out.
- Choices of the codec that neither the design nor the fixtures settle, taken by the model:
  - Codec.ReadHeader: a `CSeq` value that is not a decimal numeral fails the whole parse; a
    repeated `CSeq` keeps the last value; a header line without a colon is skipped.
  - Codec.ParseRequest: a request line must end in exactly `RTSP/1.0`.
  - Codec.ParseStartLine: the fields of a start line are separated by exactly one blank;
    a line that separates them by two blanks or by a tab is rejected.
  - Codec.StatusShape: a status line needs a message after its code and blank, so
    `RTSP/1.0 200` alone is rejected.
  - Codec.StatusShape: a status code with a leading `0` does not make a status line, so such
    a message is not read as a response.
  - Codec.ParseAddress: a port of 65536 or more rejects the message, since the port is a
    16-bit field.
  - Codec.ReadPayload: a body line with neither `=` nor `:` is dropped.
  - Codec.ToString: the writer puts the `CSeq` line right after the start line, writes each
    option as `key: value` with one blank and each payload as `key=value`, and ends every
    line with `\r\n`.
- Commands.Classify: verbs are compared after ASCII upper-casing, following the design's
  case-insensitive dispatch; no fixture sends a verb in lower case.

=== FILE: audio_fec.dfy ===
/** Forward error correction of the audio stream: every encoded frame is padded, cut into a
    fixed number of data shards of a fixed block size and followed by parity shards computed
    with a fixed coefficient matrix; shards go out tagged with their index, the shard count
    and a 16-bit wrapping frame sequence number.

    The Reed-Solomon arithmetic over GF(2^8) is not modelled: the parity code is a parameter,
    an arbitrary function that gives the parity byte at one position from one coefficient row
    and the data bytes at that position. */
module AudioFec {
  import opened Wrappers
  import opened Packet

  newtype byte = x: int | 0 <= x < 0x100

  const DataShards: nat := 4
  const FecShards: nat := 2
  const TotalShards: nat := DataShards + FecShards
  const MaxBlockSize: nat := 1400

  /** The parity coefficients used for audio in place of the computed matrix, row by row:
      one row of `DataShards` coefficients per parity shard. */
  const FecParity: seq<byte> := [0x77, 0x40, 0x38, 0x0e, 0xc7, 0xa7, 0x0d, 0x6c]

  /** A shard configuration of one stream type. */
  datatype FecConfig = FecConfig(dataShards: nat, fecShards: nat, blockSize: nat, matrix: seq<byte>)

  const AudioConfig: FecConfig := FecConfig(DataShards, FecShards, MaxBlockSize, FecParity)

  predicate ValidConfig(c: FecConfig) {
    c.dataShards > 0 && c.blockSize > 0 && |c.matrix| == c.fecShards * c.dataShards
  }

  function Total(c: FecConfig): nat {
    c.dataShards + c.fecShards
  }

  /** How many payload bytes one frame can carry. */
  function Capacity(c: FecConfig): nat {
    c.dataShards * c.blockSize
  }

  lemma RowFits(i: nat, f: nat, d: nat)
    requires i < f
    ensures i * d + d <= f * d
  {
    assert f * d == (i + 1) * d + (f - i - 1) * d;
  }

  /** The coefficients of parity shard `i`. */
  function ParityRow(c: FecConfig, i: nat): (r: seq<byte>)
    requires ValidConfig(c) && i < c.fecShards
    ensures |r| == c.dataShards
  {
    RowFits(i, c.fecShards, c.dataShards);
    c.matrix[i * c.dataShards .. i * c.dataShards + c.dataShards]
  }

  /** The first `k` parity rows, one after the other. */
  function Rows(c: FecConfig, k: nat): seq<byte>
    requires ValidConfig(c) && k <= c.fecShards
  {
    if k == 0 then [] else Rows(c, k - 1) + ParityRow(c, k - 1)
  }

  /** The parity rows, read one after the other, are exactly the matrix. */
  lemma {:induction false} RowsMakeMatrix(c: FecConfig, k: nat)
    requires ValidConfig(c) && k <= c.fecShards
    ensures k * c.dataShards <= |c.matrix|
    ensures Rows(c, k) == c.matrix[..k * c.dataShards]
  {
    var d := c.dataShards;
    if k > 0 {
      RowsMakeMatrix(c, k - 1);
      RowFits(k - 1, c.fecShards, d);
      assert (k - 1) * d + d == k * d;
      assert c.matrix[..k * d] == c.matrix[..(k - 1) * d] + c.matrix[(k - 1) * d .. k * d];
    }
  }

  /** The audio configuration: 4 data and 2 parity shards, 6 in all, blocks of 1400 bytes and
      a matrix of exactly 2 x 4 coefficients whose rows are the parity rows. */
  lemma AudioShape()
    ensures ValidConfig(AudioConfig)
    ensures Total(AudioConfig) == TotalShards == 6
    ensures |FecParity| == FecShards * DataShards == 8
    ensures Capacity(AudioConfig) == 5600
    ensures ParityRow(AudioConfig, 0) == [0x77, 0x40, 0x38, 0x0e]
    ensures ParityRow(AudioConfig, 1) == [0xc7, 0xa7, 0x0d, 0x6c]
    ensures Rows(AudioConfig, FecShards) == FecParity
  {
    assert ParityRow(AudioConfig, 0) == FecParity[0..4];
    assert ParityRow(AudioConfig, 1) == FecParity[4..8];
    RowsMakeMatrix(AudioConfig, FecShards);
  }

  // ----- shard sets -----

  /** A data shard holds one block of the padded payload; a parity shard holds the code of
      the frame's data blocks under one coefficient row. */
  datatype Shard = Data(block: seq<byte>) | Parity(code: seq<byte>)

  /** The parity byte at one position under one coefficient row, from the data blocks' bytes
      at that position: a Reed-Solomon code works position by position, so a parity shard is
      as long as a data block. */
  type ParityCode = (seq<byte>, seq<byte>) -> byte

  /** The bytes at position `j` of the blocks, one per block. */
  function Column(blocks: seq<seq<byte>>, j: nat): (r: seq<byte>)
    ensures |r| == |blocks|
  {
    seq(|blocks|, k requires 0 <= k < |blocks| => if j < |blocks[k]| then blocks[k][j] else 0)
  }

  /** The parity shard of `size` bytes under coefficient row `row`. */
  function Code(parity: ParityCode, row: seq<byte>, blocks: seq<seq<byte>>, size: nat): (r: seq<byte>)
    ensures |r| == size
  {
    seq(size, j requires 0 <= j < size => parity(row, Column(blocks, j)))
  }

  /** The number of bytes a shard carries. */
  function ShardBytes(sh: Shard): nat {
    match sh
    case Data(block) => |block|
    case Parity(code) => |code|
  }

  /** The shards of one frame, with its sequence number and its true payload length. */
  datatype ShardSet = ShardSet(seqNumber: uint16, payloadLength: nat, shards: seq<Shard>)

  datatype FecError = PayloadTooLarge(length: nat, capacity: nat)

  /** The shape every shard set of configuration `c` has: the data shards first, each one
      block long, then one parity shard per matrix row, in row order, each holding the code of
      the data blocks under its row. */
  predicate WellFormed(c: FecConfig, parity: ParityCode, s: ShardSet)
    requires ValidConfig(c)
  {
    && |s.shards| == Total(c)
    && s.payloadLength <= Capacity(c)
    && (forall i :: 0 <= i < c.dataShards ==> s.shards[i].Data? && |s.shards[i].block| == c.blockSize)
    && (forall i :: c.dataShards <= i < Total(c) ==>
          s.shards[i] == Parity(Code(parity, ParityRow(c, i - c.dataShards), DataPart(c, s), c.blockSize)))
  }

  /** The blocks of the data shards of a shard set. */
  function DataPart(c: FecConfig, s: ShardSet): seq<seq<byte>>
    requires c.dataShards <= |s.shards|
  {
    seq(c.dataShards, i requires 0 <= i < c.dataShards => if s.shards[i].Data? then s.shards[i].block else [])
  }

  function Zeros(n: nat): (r: seq<byte>)
    ensures |r| == n && forall i :: 0 <= i < n ==> r[i] == 0
  {
    seq(n, _ => 0)
  }

  /** The payload followed by zero bytes up to `size`. */
  function Pad(payload: seq<byte>, size: nat): seq<byte>
    requires |payload| <= size
  {
    payload + Zeros(size - |payload|)
  }

  /** `data` cut into `n` consecutive blocks of `size` bytes. */
  function Blocks(data: seq<byte>, n: nat, size: nat): (r: seq<seq<byte>>)
    requires |data| == n * size
    ensures |r| == n && forall i :: 0 <= i < n ==> |r[i]| == size
  {
    if n == 0 then []
    else
      assert |data[size..]| == (n - 1) * size;
      [data[..size]] + Blocks(data[size..], n - 1, size)
  }

  /** Blocks written one after the other. */
  function Concat(blocks: seq<seq<byte>>): seq<byte> {
    if |blocks| == 0 then [] else blocks[0] + Concat(blocks[1..])
  }

  /** Cutting into blocks loses nothing: the blocks put together are the data. */
  lemma {:induction false} ConcatBlocks(data: seq<byte>, n: nat, size: nat)
    requires |data| == n * size
    ensures Concat(Blocks(data, n, size)) == data
  {
    if n > 0 {
      assert |data[size..]| == (n - 1) * size;
      ConcatBlocks(data[size..], n - 1, size);
      assert data == data[..size] + data[size..];
    }
  }

  function DataShardsOf(blocks: seq<seq<byte>>): (r: seq<Shard>)
    ensures |r| == |blocks| && forall i :: 0 <= i < |blocks| ==> r[i] == Data(blocks[i])
  {
    if |blocks| == 0 then [] else [Data(blocks[0])] + DataShardsOf(blocks[1..])
  }

  function ParityShards(c: FecConfig, parity: ParityCode, blocks: seq<seq<byte>>): (r: seq<Shard>)
    requires ValidConfig(c)
    ensures |r| == c.fecShards
  {
    seq(c.fecShards, i requires 0 <= i < c.fecShards => Parity(Code(parity, ParityRow(c, i), blocks, c.blockSize)))
  }

  /** Shards one frame. A payload longer than the data shards can hold is rejected before
      anything is produced; a shorter one is padded with zero bytes. */
  function Packetize(c: FecConfig, parity: ParityCode, seqNumber: uint16, payload: seq<byte>): (r: Result<ShardSet, FecError>)
    requires ValidConfig(c)
    ensures r.Failure? <==> |payload| > Capacity(c)
    ensures r.Failure? ==> r.error == PayloadTooLarge(|payload|, Capacity(c))
    ensures r.Success? ==>
              && WellFormed(c, parity, r.value)
              && r.value.seqNumber == seqNumber
              && r.value.payloadLength == |payload|
    ensures r.Success? ==> forall i :: 0 <= i < |r.value.shards| ==> ShardBytes(r.value.shards[i]) == c.blockSize
    ensures r.Success? ==> Concat(DataPart(c, r.value)) == payload + Zeros(Capacity(c) - |payload|)
  {
    if |payload| > Capacity(c) then Failure(PayloadTooLarge(|payload|, Capacity(c)))
    else
      var blocks := Blocks(Pad(payload, Capacity(c)), c.dataShards, c.blockSize);
      var s := ShardSet(seqNumber, |payload|, DataShardsOf(blocks) + ParityShards(c, parity, blocks));
      assert DataPart(c, s) == blocks;
      ConcatBlocks(Pad(payload, Capacity(c)), c.dataShards, c.blockSize);
      Success(s)
  }

  /** A well-formed shard set is determined by its data shards: the parity shards follow from
      them and the coefficient rows. */
  lemma ParityFollowsData(c: FecConfig, parity: ParityCode, s1: ShardSet, s2: ShardSet)
    requires ValidConfig(c) && WellFormed(c, parity, s1) && WellFormed(c, parity, s2)
    requires DataPart(c, s1) == DataPart(c, s2)
    ensures s1.shards == s2.shards
  {
    forall i | 0 <= i < c.dataShards
      ensures s1.shards[i] == s2.shards[i]
    {
      assert s1.shards[i] == Data(DataPart(c, s1)[i]);
      assert s2.shards[i] == Data(DataPart(c, s2)[i]);
    }
  }

  /** An audio frame of at most 5600 bytes goes out as 6 shards: 4 data shards of 1400 bytes,
      then the codes of the data under the two fixed coefficient rows. */
  lemma AudioFrame(parity: ParityCode, seqNumber: uint16, payload: seq<byte>)
    requires |payload| <= 5600
    ensures Packetize(AudioConfig, parity, seqNumber, payload).Success?
    ensures var s := Packetize(AudioConfig, parity, seqNumber, payload).value;
      && |s.shards| == 6
      && (forall i :: 0 <= i < 4 ==> s.shards[i].Data? && |s.shards[i].block| == 1400)
      && (forall i :: 0 <= i < 6 ==> ShardBytes(s.shards[i]) == 1400)
      && s.shards[4] == Parity(Code(parity, [0x77, 0x40, 0x38, 0x0e], DataPart(AudioConfig, s), 1400))
      && s.shards[5] == Parity(Code(parity, [0xc7, 0xa7, 0x0d, 0x6c], DataPart(AudioConfig, s), 1400))
  {
    AudioShape();
  }

  /** The data blocks of a run of shards; `None` when one of them is a parity shard. */
  function DataBlocks(shards: seq<Shard>): Option<seq<seq<byte>>> {
    if |shards| == 0 then Some([])
    else if shards[0].Parity? then None
    else
      var rest :- DataBlocks(shards[1..]);
      Some([shards[0].block] + rest)
  }

  lemma {:induction false} DataBlocksOf(blocks: seq<seq<byte>>)
    ensures DataBlocks(DataShardsOf(blocks)) == Some(blocks)
  {
    if |blocks| > 0 {
      DataBlocksOf(blocks[1..]);
      assert DataShardsOf(blocks)[1..] == DataShardsOf(blocks[1..]);
      assert blocks == [blocks[0]] + blocks[1..];
    }
  }

  /** The payload of a complete shard set: its data blocks put together, without the padding. */
  function Reassemble(c: FecConfig, s: ShardSet): Option<seq<byte>> {
    if |s.shards| < c.dataShards then None
    else
      var blocks :- DataBlocks(s.shards[..c.dataShards]);
      var data := Concat(blocks);
      if s.payloadLength > |data| then None else Some(data[..s.payloadLength])
  }

  /** Every payload that fits comes back out of its shard set unchanged. */
  lemma PacketizeRoundTrip(c: FecConfig, parity: ParityCode, seqNumber: uint16, payload: seq<byte>)
    requires ValidConfig(c) && |payload| <= Capacity(c)
    ensures Reassemble(c, Packetize(c, parity, seqNumber, payload).value) == Some(payload)
  {
    var padded := Pad(payload, Capacity(c));
    var blocks := Blocks(padded, c.dataShards, c.blockSize);
    var shards := DataShardsOf(blocks) + ParityShards(c, parity, blocks);
    assert shards[..c.dataShards] == DataShardsOf(blocks);
    DataBlocksOf(blocks);
    ConcatBlocks(padded, c.dataShards, c.blockSize);
    assert padded[..|payload|] == payload;
  }

  // ----- the frame sequence number -----

  /** The next value of the 16-bit frame counter: 65535 is followed by 0. */
  function Next(n: uint16): (r: uint16)
    ensures n < 0xFFFF ==> r as int == n as int + 1
    ensures n == 0xFFFF ==> r == 0
  {
    ((n as int + 1) % 0x1_0000) as uint16
  }

  /** The counter after `k` frames. */
  function Advance(n: uint16, k: nat): uint16 {
    ((n as int + k) % 0x1_0000) as uint16
  }

  /** Advancing by one more frame is one more step of the counter, and after 65536 frames the
      counter is back where it started. */
  lemma AdvanceStep(n: uint16, k: nat)
    ensures Advance(n, k + 1) == Next(Advance(n, k))
    ensures Advance(n, k + 0x1_0000) == Advance(n, k)
  {
  }

  /** Shards a run of frames, numbering them from `start` on. The run is rejected as a whole,
      before any shard is produced, when one frame is too large. */
  method PacketizeFrames(c: FecConfig, parity: ParityCode, start: uint16, frames: seq<seq<byte>>)
    returns (r: Result<(seq<ShardSet>, uint16), FecError>)
    requires ValidConfig(c)
    ensures r.Failure? <==> exists i :: 0 <= i < |frames| && |frames[i]| > Capacity(c)
    ensures r.Success? ==> |r.value.0| == |frames| && r.value.1 == Advance(start, |frames|)
    ensures r.Success? ==> forall i :: 0 <= i < |frames| ==>
              && WellFormed(c, parity, r.value.0[i])
              && r.value.0[i].seqNumber == Advance(start, i)
              && Reassemble(c, r.value.0[i]) == Some(frames[i])
  {
    var k := 0;
    while k < |frames|
      invariant 0 <= k <= |frames|
      invariant forall j :: 0 <= j < k ==> |frames[j]| <= Capacity(c)
    {
      if |frames[k]| > Capacity(c) {
        return Failure(PayloadTooLarge(|frames[k]|, Capacity(c)));
      }
      k := k + 1;
    }
    var sets: seq<ShardSet> := [];
    var cur := start;
    while |sets| < |frames|
      invariant |sets| <= |frames|
      invariant forall j :: 0 <= j < |frames| ==> |frames[j]| <= Capacity(c)
      invariant cur == Advance(start, |sets|)
      invariant forall j :: 0 <= j < |sets| ==>
                  && WellFormed(c, parity, sets[j])
                  && sets[j].seqNumber == Advance(start, j)
                  && Reassemble(c, sets[j]) == Some(frames[j])
      decreases |frames| - |sets|
    {
      var i := |sets|;
      var s := Packetize(c, parity, cur, frames[i]).value;
      PacketizeRoundTrip(c, parity, cur, frames[i]);
      AdvanceStep(start, i);
      sets := sets + [s];
      cur := Next(cur);
    }
    return Success((sets, cur));
  }

  // ----- emitted shard packets and loss detection -----

  /** What goes out for one shard: its index, the shard count, the frame's sequence number and
      the true payload length travel with the shard. */
  datatype ShardPacket = ShardPacket(index: nat, total: nat, seqNumber: uint16, payloadLength: nat, shard: Shard)

  /** The packets of one shard set, data shards first. */
  function Emit(s: ShardSet): (r: seq<ShardPacket>)
    ensures |r| == |s.shards|
  {
    seq(|s.shards|, i requires 0 <= i < |s.shards| => ShardPacket(i, |s.shards|, s.seqNumber, s.payloadLength, s.shards[i]))
  }

  /** The packets whose index is not in `lost`. */
  function Drop(pkts: seq<ShardPacket>, lost: set<nat>): seq<ShardPacket> {
    if |pkts| == 0 then []
    else if pkts[0].index in lost then Drop(pkts[1..], lost)
    else [pkts[0]] + Drop(pkts[1..], lost)
  }

  /** The shard indices that arrived for frame `seqNumber`. */
  function Received(pkts: seq<ShardPacket>, seqNumber: uint16): set<nat> {
    set j | 0 <= j < |pkts| && pkts[j].seqNumber == seqNumber :: pkts[j].index
  }

  /** The first packet of frame `seqNumber` with shard index `i`. */
  function Find(pkts: seq<ShardPacket>, i: nat, seqNumber: uint16): (r: Option<ShardPacket>)
    ensures r.Some? ==> r.value in pkts && r.value.index == i && r.value.seqNumber == seqNumber
  {
    if |pkts| == 0 then None
    else if pkts[0].index == i && pkts[0].seqNumber == seqNumber then Some(pkts[0])
    else Find(pkts[1..], i, seqNumber)
  }

  /** The data blocks of shard indices `k` up to `d`, found among the received packets. */
  function FindBlocks(pkts: seq<ShardPacket>, seqNumber: uint16, k: nat, d: nat): Option<seq<seq<byte>>>
    decreases d - k
  {
    if k >= d then Some([])
    else
      var p :- Find(pkts, k, seqNumber);
      if p.shard.Parity? then None
      else
        var rest :- FindBlocks(pkts, seqNumber, k + 1, d);
        Some([p.shard.block] + rest)
  }

  /** The payload of frame `seqNumber` from the packets that arrived, when all of its data
      shards did. */
  function Recover(c: FecConfig, pkts: seq<ShardPacket>, seqNumber: uint16): Option<seq<byte>> {
    var first :- Find(pkts, 0, seqNumber);
    var blocks :- FindBlocks(pkts, seqNumber, 0, c.dataShards);
    var data := Concat(blocks);
    if first.payloadLength > |data| then None else Some(data[..first.payloadLength])
  }

  /** What the receiver reads from a complete frame: every shard index from 0 below the shard
      count arrives once, each packet carries the shard count, and the packet found for index
      `i` holds shard `i`; no other index is found. */
  lemma EmitFound(s: ShardSet)
    ensures forall i :: i in Received(Emit(s), s.seqNumber) <==> 0 <= i < |s.shards|
    ensures forall p :: p in Emit(s) ==> p.total == |s.shards| && p.seqNumber == s.seqNumber
    ensures forall i :: 0 <= i < |s.shards| ==>
      Find(Emit(s), i, s.seqNumber) == Some(ShardPacket(i, |s.shards|, s.seqNumber, s.payloadLength, s.shards[i]))
    ensures forall i: nat :: i >= |s.shards| ==> Find(Emit(s), i, s.seqNumber) == None
  {
    var pkts := Emit(s);
    forall i | 0 <= i < |s.shards|
      ensures Find(pkts, i, s.seqNumber) == Some(pkts[i])
    {
      FindNumbered(pkts, 0, i, s.seqNumber);
    }
    forall i: nat | i >= |s.shards|
      ensures Find(pkts, i, s.seqNumber) == None
    {
    }
    forall i | 0 <= i < |s.shards|
      ensures i in Received(pkts, s.seqNumber)
    {
      assert pkts[i].index == i;
    }
  }

  /** The receiver sees a gap exactly where a shard was lost. */
  lemma LossDetected(s: ShardSet, lost: set<nat>)
    ensures Received(Drop(Emit(s), lost), s.seqNumber) == (set i | 0 <= i < |s.shards| && i !in lost)
  {
    var pkts := Emit(s);
    var kept := Drop(pkts, lost);
    DropKeeps(pkts, lost);
    forall i | 0 <= i < |s.shards| && i !in lost
      ensures i in Received(kept, s.seqNumber)
    {
      assert pkts[i] in kept;
      var j :| 0 <= j < |kept| && kept[j] == pkts[i];
    }
  }

  /** Dropping keeps exactly the packets whose index is not lost. */
  lemma {:induction false} DropKeeps(pkts: seq<ShardPacket>, lost: set<nat>)
    ensures forall p :: p in Drop(pkts, lost) <==> p in pkts && p.index !in lost
  {
    if |pkts| > 0 {
      DropKeeps(pkts[1..], lost);
      assert forall p :: p in pkts <==> p == pkts[0] || p in pkts[1..];
    }
  }

  /** In a run of packets numbered from `offset` on, the first one with index `i` is the one
      at position `i - offset`. */
  lemma {:induction false} FindNumbered(pkts: seq<ShardPacket>, offset: nat, i: nat, seqNumber: uint16)
    requires forall j :: 0 <= j < |pkts| ==> pkts[j].index == offset + j && pkts[j].seqNumber == seqNumber
    requires offset <= i < offset + |pkts|
    ensures Find(pkts, i, seqNumber) == Some(pkts[i - offset])
  {
    if i > offset {
      FindNumbered(pkts[1..], offset + 1, i, seqNumber);
    }
  }

  /** Dropping other indices does not change which packet is found for a kept index. */
  lemma {:induction false} FindAfterDrop(pkts: seq<ShardPacket>, lost: set<nat>, i: nat, seqNumber: uint16)
    requires i !in lost
    ensures Find(Drop(pkts, lost), i, seqNumber) == Find(pkts, i, seqNumber)
  {
    if |pkts| > 0 {
      FindAfterDrop(pkts[1..], lost, i, seqNumber);
    }
  }

  /** When all data shards of a frame are among the packets, they are found in index order. */
  lemma {:induction false} FindAllBlocks(s: ShardSet, pkts: seq<ShardPacket>, k: nat, d: nat)
    requires k <= d <= |s.shards|
    requires forall j :: k <= j < d ==> s.shards[j].Data? && Find(pkts, j, s.seqNumber) == Some(Emit(s)[j])
    ensures FindBlocks(pkts, s.seqNumber, k, d).Some?
    ensures DataBlocks(s.shards[k..d]) == FindBlocks(pkts, s.seqNumber, k, d)
    decreases d - k
  {
    if k < d {
      FindAllBlocks(s, pkts, k + 1, d);
      assert s.shards[k..d][1..] == s.shards[k + 1..d];
    }
  }

  /** Losing parity shards only, the frame is recovered from the data shards that arrived,
      whatever the parity code. */
  lemma ParityLossRecovered(c: FecConfig, parity: ParityCode, seqNumber: uint16, payload: seq<byte>, lost: set<nat>)
    requires ValidConfig(c) && |payload| <= Capacity(c)
    requires forall i :: i in lost ==> i >= c.dataShards
    ensures Recover(c, Drop(Emit(Packetize(c, parity, seqNumber, payload).value), lost), seqNumber) == Some(payload)
  {
    var s := Packetize(c, parity, seqNumber, payload).value;
    var pkts := Emit(s);
    var kept := Drop(pkts, lost);
    forall j | 0 <= j < c.dataShards
      ensures Find(kept, j, seqNumber) == Some(pkts[j])
    {
      FindAfterDrop(pkts, lost, j, seqNumber);
      FindNumbered(pkts, 0, j, seqNumber);
    }
    FindAllBlocks(s, kept, 0, c.dataShards);
    PacketizeRoundTrip(c, parity, seqNumber, payload);
  }
}

=== FILE: codec.dfy ===
/** Reading and writing RTSP-dialect packets.

    Reading: the message is cut into lines (`\n` or `\r\n`); the first line is a status line
    (`RTSP/1.0 <3-digit code> <message>`) or a request line (`<verb> <target> RTSP/1.0`); the
    header lines up to the first empty line give the `CSeq` number and the options; the lines
    after it give the payload pairs. A missing `CSeq`, a malformed start line or target and a
    non-numeric `CSeq` all give `None`.

    Writing: start line, `CSeq`, one `key: value` line per option, an empty line, one
    `key=value` line per payload pair, every line ended by `\r\n`. */
module Codec {
  import opened Wrappers
  import opened Text
  import opened Packet

  // ----- reading -----

  /** Reads `streamid=<type>/<params>` or `<protocol>://<ip>:<port>`. */
  function ParseTarget(t: string): (r: Option<Target>)
    ensures r.Some? && Token(t) ==> ValidTarget(r.value)
  {
    if StreamTag <= t then ParseStreamTarget(t) else ParseUriTarget(t)
  }

  /** Reads `streamid=<type>/<params>`: the type runs up to the first `/`, which starts the
      parameters. */
  function ParseStreamTarget(t: string): (r: Option<Target>)
    requires StreamTag <= t
    ensures r.Some? && Token(t) ==> ValidTarget(r.value)
  {
    var parts :- SplitFirst(t[|StreamTag|..], {'/'});
    assert t[|StreamTag|..] == parts.0 + ['/'] + parts.1;
    Some(Stream(parts.0, "/" + parts.1))
  }

  /** Reads `<protocol>://<ip>:<port>`. */
  function ParseUriTarget(t: string): (r: Option<Target>)
    ensures r.Some? && Token(t) && !(StreamTag <= t) ==> ValidTarget(r.value)
  {
    var parts :- SplitFirst(t, {':'});
    var rest := parts.1;
    if parts.0 == "" || |rest| < 2 || rest[..2] != "//" then None
    else
      assert rest == rest[..2] + rest[2..];
      var addr :- ParseAddress(rest[2..]);
      Some(Uri(parts.0, addr.0, addr.1))
  }

  /** Reads `<ip>:<port>`: a non-empty address up to the first colon and a decimal port
      below 65536. */
  function ParseAddress(a: string): (r: Option<(string, uint16)>)
    ensures r.Some? && Token(a) ==> r.value.0 != "" && Token(r.value.0) && ':' !in r.value.0
  {
    var addr :- SplitFirst(a, {':'});
    assert a == addr.0 + [':'] + addr.1;
    var port :- ParseNat(addr.1);
    if addr.0 == "" || port >= 0x1_0000 then None
    else Some((addr.0, port as uint16))
  }

  /** Reads the first line of a packet: a status line when it starts with the protocol
      name and a three-digit code, a request line otherwise. */
  function ParseStartLine(line: string): (r: Option<Head>)
    ensures r.Some? && OneLine(line) ==> ValidHead(r.value)
  {
    var first :- SplitFirst(line, {' '});
    assert line == first.0 + [' '] + first.1;
    if first.0 == Protocol && StatusShape(first.1) then Some(ParseStatus(first.1))
    else ParseRequest(first.0, first.1)
  }

  /** A three-digit code without a leading zero, then a blank. */
  predicate StatusShape(rest: string) {
    |rest| >= 4 && AllDigits(rest[..3]) && rest[0] != '0' && rest[3] == ' '
  }

  /** Reads the code and message of a status line, after the protocol name. */
  function ParseStatus(rest: string): (r: Head)
    requires StatusShape(rest)
    ensures OneLine(rest) ==> ValidHead(r)
  {
    ThreeDigitRange(rest[..3]);
    Response(DigitsValue(rest[..3]), rest[4..])
  }

  /** Reads the target and protocol of a request line, after the verb `cmd`. */
  function ParseRequest(cmd: string, rest: string): (r: Option<Head>)
    ensures r.Some? && Token(cmd) && OneLine(rest) ==> ValidHead(r.value)
  {
    var second :- SplitFirst(rest, {' '});
    assert rest == second.0 + [' '] + second.1;
    var target :- ParseTarget(second.0);
    if cmd == "" || second.1 != Protocol then None
    else Some(Request(cmd, target))
  }

  /** The header lines (up to the first empty line) and the body lines (after it). A message
      without an empty line is all header. */
  function SplitBlock(lines: seq<string>): (seq<string>, seq<string>) {
    match SplitFirst(lines, {""})
    case None => (lines, [])
    case Some((header, body)) => (header, body)
  }

  /** What the header lines have given so far. */
  datatype HeaderAcc = HeaderAcc(seqNumber: Option<nat>, options: Options)

  /** Reads one header line: `CSeq` sets the sequence number (a non-numeric value fails the
      parse), any other `key: value` line is stored, trimmed, as an option, and a line without
      a colon is skipped. */
  function ReadHeader(acc: HeaderAcc, line: string): (r: Option<HeaderAcc>)
    ensures r.Some? && OneLine(line) && ValidOptions(acc.options) ==> ValidOptions(r.value.options)
  {
    match SplitFirst(line, {':'})
    case None => Some(acc)
    case Some((k, v)) =>
      var key := Trim(k);
      var value := Trim(v);
      if key == SeqHeader then
        var n :- ParseNat(value);
        Some(acc.(seqNumber := Some(n)))
      else
        StoreValid(acc.options, line, k, v);
        Some(acc.(options := Put(acc.options, key, value)))
  }

  /** Storing the trimmed key and value of a one-line header keeps the options valid. */
  lemma StoreValid(o: Options, line: string, k: string, v: string)
    requires SplitFirst(line, {':'}) == Some((k, v)) && Trim(k) != SeqHeader
    ensures OneLine(line) && ValidOptions(o) ==> ValidOptions(Put(o, Trim(k), Trim(v)))
  {
    if OneLine(line) && ValidOptions(o) {
      HeaderEntryValid(line, k, v);
      PutValid(o, Trim(k), Trim(v));
    }
  }

  /** The key and value cut from a one-line header are fit to be stored as an option. */
  lemma HeaderEntryValid(line: string, k: string, v: string)
    requires OneLine(line) && SplitFirst(line, {':'}) == Some((k, v)) && Trim(k) != SeqHeader
    ensures ValidOptionKey(Trim(k)) && ValidOptionValue(Trim(v))
  {
    assert line == k + [line[|k|]] + v;
    assert '\n' !in k && '\n' !in v;
    assert ':' !in k by {
      assert NoneIn(k, {':'});
    }
  }

  /** True when no line holds a line break. */
  predicate AllOneLine(lines: seq<string>) {
    forall i :: 0 <= i < |lines| ==> OneLine(lines[i])
  }

  function ReadHeaders(lines: seq<string>, acc: HeaderAcc): (r: Option<HeaderAcc>)
    ensures r.Some? && AllOneLine(lines) && ValidOptions(acc.options) ==> ValidOptions(r.value.options)
  {
    if |lines| == 0 then Some(acc)
    else
      var next :- ReadHeader(acc, lines[0]);
      assert AllOneLine(lines) ==> AllOneLine(lines[1..]);
      ReadHeaders(lines[1..], next)
  }

  /** Reads one body line, split at its first `=` or `:`; the value keeps any later
      separator verbatim. Lines without a separator (the empty one included) carry nothing. */
  function ReadPayload(line: string): (r: Option<(string, string)>)
    ensures r.Some? && OneLine(line) ==> ValidPayload(r.value)
  {
    match SplitFirst(line, {'=', ':'})
    case None => None
    case Some((k, v)) => Some((k, v))
  }

  function ReadPayloads(lines: seq<string>): (r: Payloads)
    ensures AllOneLine(lines) ==> forall i :: 0 <= i < |r| ==> ValidPayload(r[i])
  {
    if |lines| == 0 then []
    else
      assert AllOneLine(lines) ==> AllOneLine(lines[1..]);
      var rest := ReadPayloads(lines[1..]);
      match ReadPayload(lines[0])
      case None => rest
      case Some(p) => [p] + rest
  }

  /** Reads a message already cut into lines. */
  function ParseLines(lines: seq<string>): (r: Option<Packet>)
    requires |lines| > 0
    ensures r.Some? && AllOneLine(lines) ==> ValidPacket(r.value)
  {
    var head :- ParseStartLine(lines[0]);
    var block := SplitBlock(lines[1..]);
    assert lines[1..] == block.0 + block.1 || lines[1..] == block.0 + [""] + block.1;
    assert forall i :: 0 <= i < |block.0| ==> block.0[i] in lines[1..];
    assert forall i :: 0 <= i < |block.1| ==> block.1[i] in lines[1..];
    assert AllOneLine(lines) ==> AllOneLine(block.0) && AllOneLine(block.1);
    var acc :- ReadHeaders(block.0, HeaderAcc(None, []));
    var n :- acc.seqNumber;
    Some(Packet(head, n, acc.options, ReadPayloads(block.1)))
  }

  /** Reads a complete message; `None` when it is not a valid packet. */
  function Parse(raw: string): (r: Option<Packet>)
    ensures r.Some? ==> ValidPacket(r.value)
  {
    ParseLines(SplitLines(raw))
  }

  // ----- writing -----

  function TargetText(t: Target): string {
    match t
    case Uri(protocol, ip, port) => protocol + "://" + ip + ":" + NatToString(port as nat)
    case Stream(kind, params) => StreamTag + kind + params
  }

  function StartLine(h: Head): string {
    match h
    case Request(cmd, target) => cmd + " " + TargetText(target) + " " + Protocol
    case Response(code, msg) => Protocol + " " + NatToString(code) + " " + msg
  }

  function SeqLine(n: nat): string {
    SeqHeader + ": " + NatToString(n)
  }

  function OptionLine(kv: (string, string)): string {
    kv.0 + ": " + kv.1
  }

  function OptionLines(o: Options): seq<string> {
    seq(|o|, i requires 0 <= i < |o| => OptionLine(o[i]))
  }

  function PayloadLine(kv: (string, string)): string {
    kv.0 + "=" + kv.1
  }

  function PayloadLines(ps: Payloads): seq<string> {
    seq(|ps|, i requires 0 <= i < |ps| => PayloadLine(ps[i]))
  }

  /** The lines of the wire form, before line endings are added. */
  function Lines(p: Packet): seq<string> {
    [StartLine(p.head), SeqLine(p.seqNumber)] + OptionLines(p.options) + [""] + PayloadLines(p.payloads)
  }

  /** The canonical wire form of a packet. */
  function ToString(p: Packet): string {
    Terminated(Lines(p))
  }
}

=== FILE: codec_laws.dfy ===
/** Laws of the RTSP codec: the round trip, the mandatory `CSeq`, line-ending tolerance and
    the field-extraction rules the protocol fixtures rely on. */
module CodecLaws {
  import opened Wrappers
  import opened Text
  import opened Packet
  import opened Codec

  // ----- targets and start lines -----

  /** A stream target `streamid=<type>/<params>` reads back with the type cut at the first `/`. */
  lemma StreamTargetRoundTrip(kind: string, params: string)
    requires ValidTarget(Stream(kind, params))
    ensures ParseTarget(TargetText(Stream(kind, params))) == Some(Stream(kind, params))
  {
    var text := TargetText(Stream(kind, params));
    assert text == StreamTag + kind + params;
    assert StreamTag <= text;
    var after := text[|StreamTag|..];
    assert after == kind + ['/'] + params[1..];
    assert NoneIn(kind, {'/'});
    SplitFirstAt(kind, '/', params[1..], {'/'});
    assert SplitFirst(after, {'/'}) == Some((kind, params[1..]));
    assert "/" + params[1..] == params;
  }

  /** A URI text never starts with the stream tag: the protocol has no colon and the tag
      is not a prefix of it. */
  lemma UriIsNotStream(protocol: string, rest: string)
    requires ':' !in protocol && !(StreamTag <= protocol)
    ensures !(StreamTag <= protocol + [':'] + rest)
  {
    var text := protocol + [':'] + rest;
    if |protocol| >= |StreamTag| {
      assert text[..|StreamTag|] == protocol[..|StreamTag|];
    } else {
      assert text[|protocol|] == ':';
      assert ':' !in StreamTag;
    }
  }

  /** How a URI target is read, one step at a time. */
  lemma ReadUriTarget(t: string, protocol: string, rest: string, ip: string, digits: string, n: nat)
    requires !(StreamTag <= t)
    requires SplitFirst(t, {':'}) == Some((protocol, rest)) && protocol != ""
    requires |rest| >= 2 && rest[..2] == "//"
    requires SplitFirst(rest[2..], {':'}) == Some((ip, digits)) && ip != ""
    requires ParseNat(digits) == Some(n) && n < 0x1_0000
    ensures ParseTarget(t) == Some(Uri(protocol, ip, n as uint16))
  {
  }

  /** A URI target `<protocol>://<ip>:<port>` reads back field by field. */
  lemma UriTargetRoundTrip(protocol: string, ip: string, port: uint16)
    requires ValidTarget(Uri(protocol, ip, port))
    ensures ParseTarget(TargetText(Uri(protocol, ip, port))) == Some(Uri(protocol, ip, port))
  {
    var digits := NatToString(port as nat);
    var text := TargetText(Uri(protocol, ip, port));
    var rest := "//" + ip + ":" + digits;
    assert text == protocol + [':'] + rest;
    assert !(StreamTag <= text) by {
      UriIsNotStream(protocol, rest);
    }
    assert SplitFirst(text, {':'}) == Some((protocol, rest)) by {
      assert NoneIn(protocol, {':'});
      SplitFirstAt(protocol, ':', rest, {':'});
    }
    assert rest[..2] == "//";
    assert SplitFirst(rest[2..], {':'}) == Some((ip, digits)) by {
      assert rest[2..] == ip + [':'] + digits;
      assert NoneIn(ip, {':'});
      SplitFirstAt(ip, ':', digits, {':'});
    }
    NatRoundTrip(port as nat);
    ReadUriTarget(text, protocol, rest, ip, digits, port as nat);
  }

  /** The text of a valid target is one token of at least four characters. */
  lemma TargetTextIsToken(t: Target)
    requires ValidTarget(t)
    ensures Token(TargetText(t)) && |TargetText(t)| >= 4
  {
    match t
    case Stream(kind, params) =>
    case Uri(protocol, ip, port) =>
      var digits := NatToString(port as nat);
      assert ' ' !in digits && '\n' !in digits by {
        assert forall i :: 0 <= i < |digits| ==> IsDigit(digits[i]);
      }
  }

  /** A valid target is written as one token and read back. */
  lemma TargetRoundTrip(t: Target)
    requires ValidTarget(t)
    ensures ParseTarget(TargetText(t)) == Some(t)
    ensures Token(TargetText(t)) && |TargetText(t)| >= 4
  {
    TargetTextIsToken(t);
    match t
    case Stream(kind, params) => StreamTargetRoundTrip(kind, params);
    case Uri(protocol, ip, port) => UriTargetRoundTrip(protocol, ip, port);
  }

  /** How a request line is read, one step at a time. */
  lemma ReadRequestLine(line: string, cmd: string, rest: string, tt: string, target: Target)
    requires SplitFirst(line, {' '}) == Some((cmd, rest)) && cmd != ""
    requires |rest| >= 4 && rest[3] != ' '
    requires SplitFirst(rest, {' '}) == Some((tt, Protocol))
    requires ParseTarget(tt) == Some(target)
    ensures ParseStartLine(line) == Some(Request(cmd, target))
  {
  }

  /** The two blanks of a request line are the ones around its target. */
  lemma RequestLineSplit(cmd: string, tt: string)
    requires Token(cmd) && Token(tt) && |tt| >= 4
    ensures SplitFirst(cmd + " " + tt + " " + Protocol, {' '}) == Some((cmd, tt + " " + Protocol))
    ensures SplitFirst(tt + " " + Protocol, {' '}) == Some((tt, Protocol))
    ensures |tt + " " + Protocol| >= 4 && (tt + " " + Protocol)[3] != ' '
  {
    var rest := tt + " " + Protocol;
    assert cmd + " " + rest == cmd + [' '] + rest;
    assert cmd + " " + tt + " " + Protocol == cmd + " " + rest;
    assert NoneIn(cmd, {' '});
    SplitFirstAt(cmd, ' ', rest, {' '});
    assert rest[3] == tt[3] && tt[3] in tt;
    assert rest == tt + [' '] + Protocol;
    assert NoneIn(tt, {' '});
    SplitFirstAt(tt, ' ', Protocol, {' '});
  }

  /** A request line reads back as the same verb and target; it is never mistaken for a
      status line, because the fourth character of a target is not a space. */
  lemma RequestLineRoundTrip(cmd: string, target: Target)
    requires ValidHead(Request(cmd, target))
    ensures ParseStartLine(StartLine(Request(cmd, target))) == Some(Request(cmd, target))
  {
    var tt := TargetText(target);
    TargetRoundTrip(target);
    RequestLineSplit(cmd, tt);
    assert StartLine(Request(cmd, target)) == cmd + " " + tt + " " + Protocol;
    ReadRequestLine(cmd + " " + tt + " " + Protocol, cmd, tt + " " + Protocol, tt, target);
  }

  /** A status line reads back as the same code and the whole message. */
  lemma StatusLineRoundTrip(code: nat, msg: string)
    requires ValidHead(Response(code, msg))
    ensures ParseStartLine(StartLine(Response(code, msg))) == Some(Response(code, msg))
  {
    var line := StartLine(Response(code, msg));
    ThreeDigits(code);
    NatRoundTrip(code);
    var d := NatToString(code);
    var rest := d + " " + msg;
    assert line == Protocol + [' '] + rest;
    assert NoneIn(Protocol, {' '});
    SplitFirstAt(Protocol, ' ', rest, {' '});
    assert rest[..3] == d && rest[3] == ' ' && rest[4..] == msg;
  }

  /** The start line of a valid head is one line. */
  lemma StartLineIsOneLine(h: Head)
    requires ValidHead(h)
    ensures OneLine(StartLine(h))
  {
    match h
    case Request(cmd, target) =>
      TargetTextIsToken(target);
    case Response(code, msg) =>
      var d := NatToString(code);
      assert '\n' !in d by {
        assert forall i :: 0 <= i < |d| ==> IsDigit(d[i]);
      }
  }

  /** A valid start line is one line and reads back as the same head. */
  lemma StartLineRoundTrip(h: Head)
    requires ValidHead(h)
    ensures ParseStartLine(StartLine(h)) == Some(h)
    ensures OneLine(StartLine(h))
  {
    StartLineIsOneLine(h);
    match h
    case Request(cmd, target) => RequestLineRoundTrip(cmd, target);
    case Response(code, msg) => StatusLineRoundTrip(code, msg);
  }

  // ----- header and body blocks -----

  /** The header line `key: value` of a valid option reads back as that option. */
  lemma OptionLineRead(acc: HeaderAcc, kv: (string, string))
    requires ValidOptionKey(kv.0) && ValidOptionValue(kv.1) && kv.0 !in Keys(acc.options)
    ensures ReadHeader(acc, OptionLine(kv)) == Some(acc.(options := acc.options + [kv]))
  {
    var (k, v) := kv;
    assert OptionLine(kv) == k + [':'] + (" " + v);
    assert NoneIn(k, {':'});
    SplitFirstAt(k, ':', " " + v, {':'});
    TrimSpaced(k);
    TrimSpaced(v);
    PutFresh(acc.options, k, v);
  }

  /** Header lines are read one after the other. */
  lemma ReadHeadersStep(lines: seq<string>, acc: HeaderAcc, next: HeaderAcc)
    requires |lines| > 0 && ReadHeader(acc, lines[0]) == Some(next)
    ensures ReadHeaders(lines, acc) == ReadHeaders(lines[1..], next)
  {
  }

  /** Once the first option is stored, the remaining ones are still valid and fresh. */
  lemma TailStaysFresh(o: Options, stored: Options)
    requires ValidOptions(o) && |o| > 0
    requires forall i :: 0 <= i < |o| ==> o[i].0 !in Keys(stored)
    ensures ValidOptions(o[1..])
    ensures forall i :: 0 <= i < |o[1..]| ==> o[1..][i].0 !in Keys(stored + [o[0]])
  {
    KeysAppend(stored, o[0]);
    assert forall i :: 0 <= i < |o[1..]| ==> o[1..][i] == o[i + 1];
  }

  /** The option lines after the first are the lines of the remaining options. */
  lemma OptionLinesTail(o: Options)
    requires |o| > 0
    ensures OptionLines(o)[0] == OptionLine(o[0])
    ensures OptionLines(o)[1..] == OptionLines(o[1..])
  {
    assert forall i :: 0 <= i < |o| - 1 ==> OptionLines(o)[1..][i] == OptionLine(o[1..][i]);
  }

  /** Option lines of distinct fresh keys read back as those options, in order. */
  lemma {:induction false} OptionLinesRead(o: Options, acc: HeaderAcc)
    requires ValidOptions(o)
    requires forall i :: 0 <= i < |o| ==> o[i].0 !in Keys(acc.options)
    ensures ReadHeaders(OptionLines(o), acc) == Some(acc.(options := acc.options + o))
  {
    if |o| > 0 {
      var next := acc.(options := acc.options + [o[0]]);
      assert ReadHeaders(OptionLines(o), acc) == ReadHeaders(OptionLines(o[1..]), next) by {
        OptionLineRead(acc, o[0]);
        OptionLinesTail(o);
        ReadHeadersStep(OptionLines(o), acc, next);
      }
      assert ReadHeaders(OptionLines(o[1..]), next) == Some(next.(options := next.options + o[1..])) by {
        TailStaysFresh(o, acc.options);
        OptionLinesRead(o[1..], next);
      }
      AppendFirst(acc.options, o);
    } else {
      assert acc.options + o == acc.options;
    }
  }

  /** The `CSeq` line sets the sequence number and nothing else. */
  lemma SeqLineRead(acc: HeaderAcc, n: nat)
    ensures ReadHeader(acc, SeqLine(n)) == Some(acc.(seqNumber := Some(n)))
  {
    var digits := NatToString(n);
    assert SeqLine(n) == SeqHeader + [':'] + (" " + digits);
    assert NoneIn(SeqHeader, {':'});
    SplitFirstAt(SeqHeader, ':', " " + digits, {':'});
    TrimSpaced(SeqHeader);
    assert Trimmed(digits);
    TrimSpaced(digits);
    NatRoundTrip(n);
  }

  /** The `CSeq` line followed by the option lines gives back the number and the options. */
  lemma HeaderBlockRead(n: nat, o: Options)
    requires ValidOptions(o)
    ensures ReadHeaders([SeqLine(n)] + OptionLines(o), HeaderAcc(None, [])) == Some(HeaderAcc(Some(n), o))
  {
    var lines := [SeqLine(n)] + OptionLines(o);
    var acc := HeaderAcc(Some(n), []);
    assert ReadHeaders(lines, HeaderAcc(None, [])) == ReadHeaders(OptionLines(o), acc) by {
      SeqLineRead(HeaderAcc(None, []), n);
      ReadHeadersStep(lines, HeaderAcc(None, []), acc);
      assert lines[1..] == OptionLines(o);
    }
    OptionLinesRead(o, acc);
    assert [] + o == o;
  }

  /** A header line `key:` followed by blanks and a value stores the value under the key. */
  lemma StoredAfterBlanks(acc: HeaderAcc, k: string, pad: string, v: string)
    requires ValidOptionKey(k) && ValidOptionValue(v)
    requires forall i :: 0 <= i < |pad| ==> IsSpace(pad[i])
    ensures ReadHeader(acc, k + [':'] + (pad + v)) == Some(acc.(options := Put(acc.options, k, v)))
  {
    assert NoneIn(k, {':'});
    SplitFirstAt(k, ':', pad + v, {':'});
    TrimSpaced(k);
    TrimPadded(pad, v);
  }

  /** Extra blanks between the colon and the value of a header line change nothing: the
      value is trimmed before it is stored. */
  lemma PaddedOptionLineRead(acc: HeaderAcc, k: string, pad: string, v: string)
    requires ValidOptionKey(k) && ValidOptionValue(v)
    requires forall i :: 0 <= i < |pad| ==> IsSpace(pad[i])
    ensures ReadHeader(acc, k + ":" + pad + v) == ReadHeader(acc, OptionLine((k, v)))
  {
    assert k + ":" + pad + v == k + [':'] + (pad + v);
    assert OptionLine((k, v)) == k + [':'] + (" " + v);
    StoredAfterBlanks(acc, k, pad, v);
    StoredAfterBlanks(acc, k, " ", v);
  }

  /** A padded header line anywhere in the header block reads like its canonical form. */
  lemma {:induction false} PaddedHeaderRead(pre: seq<string>, k: string, pad: string, v: string, post: seq<string>, acc: HeaderAcc)
    requires ValidOptionKey(k) && ValidOptionValue(v)
    requires forall i :: 0 <= i < |pad| ==> IsSpace(pad[i])
    ensures ReadHeaders(pre + [k + ":" + pad + v] + post, acc) == ReadHeaders(pre + [OptionLine((k, v))] + post, acc)
  {
    var l1 := pre + [k + ":" + pad + v] + post;
    var l2 := pre + [OptionLine((k, v))] + post;
    if |pre| == 0 {
      PaddedOptionLineRead(acc, k, pad, v);
      assert l1[1..] == post == l2[1..];
    } else {
      assert l1[0] == pre[0] == l2[0];
      assert l1[1..] == pre[1..] + [k + ":" + pad + v] + post;
      assert l2[1..] == pre[1..] + [OptionLine((k, v))] + post;
      match ReadHeader(acc, pre[0])
      case None =>
      case Some(next) =>
        PaddedHeaderRead(pre[1..], k, pad, v, post, next);
    }
  }

  /** A request or response read off the wire: its start line, a header block that sets the
      sequence number, the blank line, then any body text, with each line ended by `\n` or
      `\r\n` as `crlf` says. */
  lemma MessageRead(start: string, header: seq<string>, crlf: seq<bool>, body: string, head: Head, n: nat, o: Options)
    requires ParseStartLine(start) == Some(head)
    requires ReadHeaders(header, HeaderAcc(None, [])) == Some(HeaderAcc(Some(n), o))
    requires NoneIn(header, {""})
    requires |crlf| == |header| + 2
    requires '\n' !in start && NoCR(start)
    requires forall i :: 0 <= i < |header| ==> '\n' !in header[i] && NoCR(header[i])
    ensures Parse(Joined([start] + header + [""], crlf) + body) == Some(Packet(head, n, o, ReadPayloads(SplitLines(body))))
  {
    var rest := header + [""] + SplitLines(body);
    var lines := [start] + rest;
    assert SplitLines(Joined([start] + header + [""], crlf) + body) == lines by {
      FramedLines(start, header, crlf, body);
    }
    assert SplitBlock(lines[1..]) == (header, SplitLines(body)) by {
      assert lines[1..] == rest;
      SplitFirstAt(header, "", SplitLines(body), {""});
    }
    ReadParsedLines(lines, head, header, SplitLines(body), HeaderAcc(Some(n), o));
  }

  /** The same message without a body carries no payloads. */
  lemma BodilessMessage(start: string, header: seq<string>, crlf: seq<bool>, head: Head, n: nat, o: Options)
    requires ParseStartLine(start) == Some(head)
    requires ReadHeaders(header, HeaderAcc(None, [])) == Some(HeaderAcc(Some(n), o))
    requires NoneIn(header, {""})
    requires |crlf| == |header| + 2
    requires '\n' !in start && NoCR(start)
    requires forall i :: 0 <= i < |header| ==> '\n' !in header[i] && NoCR(header[i])
    ensures Parse(Joined([start] + header + [""], crlf)) == Some(Packet(head, n, o, []))
  {
    MessageRead(start, header, crlf, "", head, n, o);
    assert Joined([start] + header + [""], crlf) + "" == Joined([start] + header + [""], crlf);
    assert NoneIn("", {'\n'});
    assert NoneIn("", {'=', ':'});
  }

  /** A body line splits at its first `=` or `:`; whatever follows, later separators
      included, is the value. */
  lemma PayloadLineSplit(k: string, sep: char, v: string)
    requires '=' !in k && ':' !in k && (sep == '=' || sep == ':')
    ensures ReadPayload(k + [sep] + v) == Some((k, v))
  {
    assert NoneIn(k, {'=', ':'});
    SplitFirstAt(k, sep, v, {'=', ':'});
  }

  /** Payload lines, followed by the empty remainder of the message, read back in order. */
  lemma {:induction false} PayloadLinesRead(ps: Payloads)
    requires forall i :: 0 <= i < |ps| ==> ValidPayload(ps[i])
    ensures ReadPayloads(PayloadLines(ps) + [""]) == ps
  {
    var lines := PayloadLines(ps) + [""];
    if |ps| == 0 {
      assert NoneIn("", {'=', ':'});
      assert lines[1..] == [];
    } else {
      assert lines[0] == ps[0].0 + ['='] + ps[0].1;
      PayloadLineSplit(ps[0].0, '=', ps[0].1);
      assert lines[1..] == PayloadLines(ps[1..]) + [""];
      PayloadLinesRead(ps[1..]);
    }
  }

  /** An empty line at the end of the body adds no payload. */
  lemma {:induction false} EmptyLineCarriesNothing(lines: seq<string>)
    ensures ReadPayloads(lines + [""]) == ReadPayloads(lines)
  {
    if |lines| == 0 {
      assert NoneIn("", {'=', ':'});
      assert ([] + [""])[1..] == [];
    } else {
      assert (lines + [""])[1..] == lines[1..] + [""];
      EmptyLineCarriesNothing(lines[1..]);
    }
  }

  // ----- the whole packet -----

  /** Option lines of a valid option list are non-empty single lines. */
  lemma OptionLinesShape(o: Options)
    requires ValidOptions(o)
    ensures forall i :: 0 <= i < |o| ==> OneLine(OptionLines(o)[i]) && OptionLines(o)[i] != ""
  {
    forall i | 0 <= i < |o|
      ensures OneLine(OptionLines(o)[i]) && OptionLines(o)[i] != ""
    {
      assert ValidOptionKey(o[i].0) && ValidOptionValue(o[i].1);
    }
  }

  /** Payload lines of valid payload pairs are single lines. */
  lemma PayloadLinesShape(ps: Payloads)
    requires forall i :: 0 <= i < |ps| ==> ValidPayload(ps[i])
    ensures forall i :: 0 <= i < |ps| ==> OneLine(PayloadLines(ps)[i])
  {
    forall i | 0 <= i < |ps|
      ensures OneLine(PayloadLines(ps)[i])
    {
      assert ValidPayload(ps[i]);
    }
  }

  /** The `CSeq` line is one line. */
  lemma SeqLineIsOneLine(n: nat)
    ensures OneLine(SeqLine(n)) && SeqLine(n) != ""
  {
    var digits := NatToString(n);
    assert '\n' !in digits by {
      assert forall i :: 0 <= i < |digits| ==> IsDigit(digits[i]);
    }
  }

  /** Every line of the wire form of a valid packet stays on one line, and no header line
      is empty. */
  lemma LinesAreLines(p: Packet)
    requires ValidPacket(p)
    ensures forall i :: 0 <= i < |Lines(p)| ==> OneLine(Lines(p)[i])
    ensures forall i :: 1 <= i < 2 + |p.options| ==> Lines(p)[i] != ""
  {
    StartLineIsOneLine(p.head);
    SeqLineIsOneLine(p.seqNumber);
    OptionLinesShape(p.options);
    PayloadLinesShape(p.payloads);
    var L := Lines(p);
    var k := |p.options|;
    forall i | 0 <= i < |L|
      ensures OneLine(L[i])
    {
      if 2 <= i < 2 + k {
        assert L[i] == OptionLines(p.options)[i - 2];
      } else if i > 2 + k {
        assert L[i] == PayloadLines(p.payloads)[i - 3 - k];
      }
    }
    forall i | 1 <= i < 2 + k
      ensures L[i] != ""
    {
      if i >= 2 {
        assert L[i] == OptionLines(p.options)[i - 2];
      }
    }
  }

  /** Dropping the start line from the terminated line list leaves the header block, the
      blank separator line and the body with its empty remainder. */
  lemma AfterStartLine<T>(start: T, seqLine: T, options: seq<T>, blank: T, body: seq<T>)
    ensures ([start, seqLine] + options + [blank] + body + [blank])[1..]
         == ([seqLine] + options) + [blank] + (body + [blank])
  {
  }

  /** No line of the header block of a valid packet is blank. */
  lemma HeaderBlockHasNoBlank(p: Packet)
    requires ValidPacket(p)
    ensures NoneIn([SeqLine(p.seqNumber)] + OptionLines(p.options), {""})
  {
    SeqLineIsOneLine(p.seqNumber);
    OptionLinesShape(p.options);
    var header := [SeqLine(p.seqNumber)] + OptionLines(p.options);
    forall i | 1 <= i < |header|
      ensures header[i] != ""
    {
      assert header[i] == OptionLines(p.options)[i - 1];
    }
  }

  /** How a message already cut into lines is read, one step at a time. */
  lemma ReadParsedLines(lines: seq<string>, head: Head, header: seq<string>, body: seq<string>, acc: HeaderAcc)
    requires |lines| > 0 && ParseStartLine(lines[0]) == Some(head)
    requires SplitBlock(lines[1..]) == (header, body)
    requires ReadHeaders(header, HeaderAcc(None, [])) == Some(acc) && acc.seqNumber.Some?
    ensures ParseLines(lines) == Some(Packet(head, acc.seqNumber.value, acc.options, ReadPayloads(body)))
  {
  }

  /** Two line lists with the same start line, header block and body payloads read alike. */
  lemma SameParsedLines(l1: seq<string>, l2: seq<string>)
    requires |l1| > 0 && |l2| > 0 && l1[0] == l2[0]
    requires SplitBlock(l1[1..]).0 == SplitBlock(l2[1..]).0
    requires ReadPayloads(SplitBlock(l1[1..]).1) == ReadPayloads(SplitBlock(l2[1..]).1)
    ensures ParseLines(l1) == ParseLines(l2)
  {
  }

  /** Round-trip law: writing a valid packet and reading it back gives the same packet. */
  lemma RoundTrip(p: Packet)
    requires ValidPacket(p)
    ensures Parse(ToString(p)) == Some(p)
  {
    var L := Lines(p);
    var lines := L + [""];
    var header := [SeqLine(p.seqNumber)] + OptionLines(p.options);
    var body := PayloadLines(p.payloads) + [""];
    assert SplitLines(ToString(p)) == lines by {
      LinesAreLines(p);
      SplitTerminated(L);
    }
    assert ParseStartLine(lines[0]) == Some(p.head) by {
      StartLineRoundTrip(p.head);
    }
    assert SplitBlock(lines[1..]) == (header, body) by {
      assert lines[1..] == header + [""] + body by {
        AfterStartLine(StartLine(p.head), SeqLine(p.seqNumber), OptionLines(p.options), "", PayloadLines(p.payloads));
      }
      HeaderBlockHasNoBlank(p);
      SplitFirstAt(header, "", body, {""});
    }
    HeaderBlockRead(p.seqNumber, p.options);
    assert ReadPayloads(body) == p.payloads by {
      PayloadLinesRead(p.payloads);
    }
    ReadParsedLines(lines, p.head, header, body, HeaderAcc(Some(p.seqNumber), p.options));
  }

  /** Every packet the parser produces is valid, so its wire form reads back as itself and
      writing is stable under a second round: the law the protocol fixtures check. */
  lemma ReparseStable(raw: string, p: Packet)
    requires Parse(raw) == Some(p)
    ensures Parse(ToString(p)) == Some(p)
    ensures ToString(Parse(ToString(p)).value) == ToString(p)
  {
    RoundTrip(p);
  }

  // ----- the mandatory sequence number -----

  /** A header line that sets the sequence number. */
  predicate DeclaresSeq(line: string) {
    match SplitFirst(line, {':'})
    case Some((k, _)) => Trim(k) == SeqHeader
    case None => false
  }

  /** The header lines of a raw message: after the start line, up to the first empty line. */
  function HeaderLines(raw: string): seq<string> {
    SplitBlock(SplitLines(raw)[1..]).0
  }

  /** Header lines that never set the sequence number leave it unset. */
  lemma {:induction false} NoSeqStaysUnset(lines: seq<string>, acc: HeaderAcc)
    requires acc.seqNumber.None?
    requires forall i :: 0 <= i < |lines| ==> !DeclaresSeq(lines[i])
    ensures ReadHeaders(lines, acc).Some? ==> ReadHeaders(lines, acc).value.seqNumber.None?
  {
    if |lines| > 0 {
      match ReadHeader(acc, lines[0])
      case None =>
      case Some(next) =>
        NoSeqStaysUnset(lines[1..], next);
    }
  }

  /** A message whose header block has no `CSeq` line is not a packet, whether it is a
      request or a response. */
  lemma MissingSeqRejected(raw: string)
    requires forall i :: 0 <= i < |HeaderLines(raw)| ==> !DeclaresSeq(HeaderLines(raw)[i])
    ensures Parse(raw) == None
  {
    NoSeqStaysUnset(HeaderLines(raw), HeaderAcc(None, []));
  }

  /** A message on a single line has no header block, hence no `CSeq`, and is rejected. */
  lemma SingleLineRejected(raw: string)
    requires '\n' !in raw
    ensures Parse(raw) == None
  {
    assert NoneIn(raw, {'\n'});
    assert SplitLines(raw)[1..] == [];
    assert NoneIn([], {""});
  }

  /** The sequence number never shows up among the options of a parsed packet. */
  lemma SeqNeverAnOption(raw: string, p: Packet)
    requires Parse(raw) == Some(p)
    ensures Get(p.options, SeqHeader) == None
  {
    GetIffKey(p.options, SeqHeader);
    NotAKey(p.options, SeqHeader);
  }

  // ----- line endings -----

  /** `\r\n` and `\n` line endings may be mixed freely: exchanging one for the other after a
      line that does not itself end in `\r` changes nothing that is read. */
  lemma LineEndingIrrelevant(x: string, y: string)
    requires |x| == 0 || x[|x| - 1] != '\r'
    ensures Parse(x + "\r\n" + y) == Parse(x + "\n" + y)
  {
    LineEndingsAgree(x, y);
  }

  /** A line break after the last body line changes nothing that is read. */
  lemma FinalNewlineIrrelevant(x: string)
    ensures Parse(x + "\n") == Parse(x)
  {
    var ls := SplitLines(x);
    assert SplitLines(x + "\n") == ls + [""] by {
      SplitLinesAppend(x, "");
      assert x + "\n" + "" == x + "\n";
      assert NoneIn("", {'\n'});
    }
    TrailingBlankLine(ls);
  }

  /** An empty line after the last line ends the header block if there was no body yet and
      adds an empty body line otherwise; either way nothing more is read. */
  lemma TrailingBlankLine(ls: seq<string>)
    requires |ls| > 0
    ensures ParseLines(ls + [""]) == ParseLines(ls)
  {
    var ls' := ls + [""];
    assert ls'[1..] == ls[1..] + [""];
    match SplitFirst(ls[1..], {""})
    case None =>
      assert SplitBlock(ls'[1..]) == (ls[1..], []) by {
        SplitFirstAt(ls[1..], "", [], {""});
        assert ls[1..] + [""] == ls[1..] + [""] + [];
      }
      SameParsedLines(ls', ls);
    case Some((h, b)) =>
      assert SplitBlock(ls'[1..]) == (h, b + [""]) by {
        assert ls[1..] + [""] == h + [""] + (b + [""]);
        SplitFirstAt(h, "", b + [""], {""});
      }
      EmptyLineCarriesNothing(b);
      SameParsedLines(ls', ls);
  }

  /** A valid packet written with any mix of `\n` and `\r\n` line endings reads back as
      itself, as long as no line of it ends in `\r` of its own. */
  lemma AnyLineEndings(p: Packet, crlf: seq<bool>)
    requires ValidPacket(p) && |crlf| == |Lines(p)|
    requires forall i :: 0 <= i < |Lines(p)| ==> NoCR(Lines(p)[i])
    ensures Parse(Joined(Lines(p), crlf)) == Some(p)
  {
    var L := Lines(p);
    LinesAreLines(p);
    assert SplitLines(Joined(L, crlf)) == L + [""] by {
      SplitJoined(L, crlf, "");
      assert Joined(L, crlf) + "" == Joined(L, crlf);
      assert NoneIn("", {'\n'});
    }
    SplitTerminated(L);
    RoundTrip(p);
  }

  /** The same holds when the last line is left without a line ending. */
  lemma UnterminatedLastLine(p: Packet, crlf: seq<bool>)
    requires ValidPacket(p) && |crlf| == |Lines(p)| - 1
    requires forall i :: 0 <= i < |Lines(p)| ==> NoCR(Lines(p)[i])
    ensures Parse(Joined(Lines(p)[..|Lines(p)| - 1], crlf) + Lines(p)[|Lines(p)| - 1]) == Some(p)
  {
    var L := Lines(p);
    var n := |L|;
    var raw := Joined(L[..n - 1], crlf) + L[n - 1];
    assert Parse(raw) == Parse(Joined(L, crlf + [false])) by {
      FinalNewlineIrrelevant(raw);
      JoinedSnoc(L[..n - 1], crlf, L[n - 1], false);
      SnocLast(L);
    }
    AnyLineEndings(p, crlf + [false]);
  }
}

=== FILE: commands.dfy ===
/** The RTSP command dispatcher: a pure function from a parsed request, the client's session
    configuration and the connection's own state to the response, the new connection state and
    the events published on the session's event bus. */
module Commands {
  import opened Wrappers
  import opened Text
  import opened Packet
  import opened Codec
  import opened CodecLaws

  // ----- session configuration -----

  datatype DisplayMode = DisplayMode(width: nat, height: nat, refreshRate: nat)

  /** Speaker positions of a channel mask, in their declaration order. */
  datatype Speaker =
    | FrontLeft | FrontRight | FrontCenter | LowFrequency
    | BackLeft | BackRight | SideLeft | SideRight

  datatype AudioMode = AudioMode(channels: nat, streams: nat, coupledStreams: nat, speakers: seq<Speaker>)

  /** The per-client configuration the dispatcher reads; it never changes it. Keys, the
      application descriptor and the event bus handle are not part of this model. */
  datatype Session = Session(
    sessionId: nat,
    display: DisplayMode,
    audio: AudioMode,
    ip: string,
    rtspPort: uint16,
    controlPort: uint16,
    audioPort: uint16,
    videoPort: uint16)

  /** Connection-local state: whether a SETUP has succeeded, so that the session token has
      been issued. */
  datatype Conn = Conn(established: bool)

  const Fresh: Conn := Conn(false)

  /** What the dispatcher publishes on the session's event bus. */
  datatype Event = StreamReady(sessionId: nat)

  datatype Reply = Reply(response: Packet, conn: Conn, events: seq<Event>)

  // ----- the command table -----

  /** The media channels a SETUP can open. */
  datatype Channel = Audio | Video | Control

  datatype Command = OptionsCmd | DescribeCmd | SetupCmd(channel: Channel) | AnnounceCmd | UnknownCmd

  /** The session token the dispatcher issues on the first successful SETUP. */
  const Token: string := "DEADBEEFCAFE"

  const SessionTimeout: nat := 90

  function UpperChar(c: char): char {
    if 'a' <= c <= 'z' then (c as int - 32) as char else c
  }

  /** ASCII upper case, under which verbs are compared. */
  function Upper(s: string): (r: string)
    ensures |r| == |s|
  {
    if |s| == 0 then [] else [UpperChar(s[0])] + Upper(s[1..])
  }

  /** Text without lower-case letters is its own upper case. */
  lemma {:induction false} UpperFixed(s: string)
    requires forall i :: 0 <= i < |s| ==> !('a' <= s[i] <= 'z')
    ensures Upper(s) == s
  {
    if |s| > 0 {
      UpperFixed(s[1..]);
    }
  }

  function ChannelOf(kind: string): Option<Channel> {
    if kind == "audio" then Some(Audio)
    else if kind == "video" then Some(Video)
    else if kind == "control" then Some(Control)
    else None
  }

  /** Which entry of the command table a request line selects; SETUP also looks at the stream
      type of its target. */
  function Classify(h: Head): Command {
    match h
    case Response(_, _) => UnknownCmd
    case Request(cmd, target) =>
      var verb := Upper(cmd);
      if verb == "OPTIONS" then OptionsCmd
      else if verb == "DESCRIBE" then DescribeCmd
      else if verb == "ANNOUNCE" then AnnounceCmd
      else if verb == "SETUP" && target.Stream? && ChannelOf(target.kind).Some? then
        SetupCmd(ChannelOf(target.kind).value)
      else UnknownCmd
  }

  function ChannelPort(s: Session, ch: Channel): uint16 {
    match ch
    case Audio => s.audioPort
    case Video => s.videoPort
    case Control => s.controlPort
  }

  // ----- response contents -----

  function SessionValue(): string {
    Token + ";timeout = " + NatToString(SessionTimeout)
  }

  function TransportValue(port: uint16): string {
    "server_port=" + NatToString(port as nat)
  }

  function SpeakerOrdinal(sp: Speaker): nat {
    match sp
    case FrontLeft => 0
    case FrontRight => 1
    case FrontCenter => 2
    case LowFrequency => 3
    case BackLeft => 4
    case BackRight => 5
    case SideLeft => 6
    case SideRight => 7
  }

  /** The speaker ordinals of a channel mask written one after the other. */
  function SpeakerDigits(sps: seq<Speaker>): (r: string)
    ensures AllDigits(r)
  {
    if |sps| == 0 then "" else NatToString(SpeakerOrdinal(sps[0])) + SpeakerDigits(sps[1..])
  }

  /** Channel count, stream count, coupled-stream count and speaker ordinals, run together. */
  function SurroundParams(a: AudioMode): string {
    NatToString(a.channels) + NatToString(a.streams) + NatToString(a.coupledStreams) + SpeakerDigits(a.speakers)
  }

  function DescribePayloads(s: Session): Payloads {
    [("sprop-parameter-sets", "AAAAAU"), ("a", "fmtp:97 surround-params=" + SurroundParams(s.audio))]
  }

  function Ok(n: nat, options: Options, payloads: Payloads): Packet {
    Packet(Response(200, "OK"), n, options, payloads)
  }

  function NotFound(n: nat): Packet {
    Packet(Response(404, "NOT FOUND"), n, [], [])
  }

  function SetupOptions(s: Session, ch: Channel): Options {
    [("Session", SessionValue()), ("Transport", TransportValue(ChannelPort(s, ch)))]
  }

  // ----- the dispatcher -----

  /** Answers one request. Every answer is a well-formed response carrying the request's
      `CSeq`; the connection, once established, stays established. */
  function Handle(req: Packet, s: Session, conn: Conn): (r: Reply)
    ensures r.response.seqNumber == req.seqNumber
    ensures r.response.head.Response?
    ensures ValidPacket(r.response)
    ensures r.conn.established <==> conn.established || Classify(req.head).SetupCmd?
    ensures r.events == if Classify(req.head) == AnnounceCmd then [StreamReady(s.sessionId)] else []
  {
    var n := req.seqNumber;
    match Classify(req.head)
    case UnknownCmd => Reply(NotFound(n), conn, [])
    case OptionsCmd => Reply(Ok(n, [], []), conn, [])
    case DescribeCmd =>
      DescribeValid(s);
      Reply(Ok(n, [], DescribePayloads(s)), conn, [])
    case SetupCmd(ch) =>
      SetupValid(s, ch);
      Reply(Ok(n, SetupOptions(s, ch), []), Conn(true), [])
    case AnnounceCmd => Reply(Ok(n, [], []), conn, [StreamReady(s.sessionId)])
  }

  /** A numeral never holds a line break or a blank and never ends in one. */
  lemma DigitsAreTrimmedLine(d: string)
    requires AllDigits(d)
    ensures OneLine(d) && ' ' !in d && '\t' !in d
  {
    assert forall i :: 0 <= i < |d| ==> IsDigit(d[i]);
  }

  lemma DescribeValid(s: Session)
    ensures forall i :: 0 <= i < |DescribePayloads(s)| ==> ValidPayload(DescribePayloads(s)[i])
  {
    var sp := SurroundParams(s.audio);
    var a := NatToString(s.audio.channels);
    var b := NatToString(s.audio.streams);
    var c := NatToString(s.audio.coupledStreams);
    AppendDigits(a, b);
    AppendDigits(a + b, c);
    AppendDigits(a + b + c, SpeakerDigits(s.audio.speakers));
    DigitsAreTrimmedLine(sp);
  }

  lemma AppendDigits(a: string, b: string)
    requires AllDigits(a) && AllDigits(b)
    ensures AllDigits(a + b)
  {
    assert forall i :: 0 <= i < |a + b| ==> (a + b)[i] == if i < |a| then a[i] else b[i - |a|];
  }

  lemma SetupValid(s: Session, ch: Channel)
    ensures ValidOptions(SetupOptions(s, ch))
  {
    var d := NatToString(ChannelPort(s, ch) as nat);
    DigitsAreTrimmedLine(d);
    assert d[|d| - 1] in d;
    var t := TransportValue(ChannelPort(s, ch));
    assert t[|t| - 1] == d[|d| - 1];
    assert OneLine(t) by {
      assert t == "server_port=" + d;
    }
    DigitsAreTrimmedLine(NatToString(SessionTimeout));
  }

  // ----- laws of the dispatcher -----

  /** The verbs the dispatcher knows; SETUP only for the three stream types. */
  predicate Recognised(h: Head) {
    && h.Request?
    && Upper(h.cmd) in {"OPTIONS", "DESCRIBE", "ANNOUNCE", "SETUP"}
    && (Upper(h.cmd) == "SETUP" ==> h.target.Stream? && h.target.kind in {"audio", "video", "control"})
  }

  /** A request is answered 404 exactly when its verb is not recognised, 200 otherwise; a
      404 carries no options and no payloads. */
  lemma NotFoundIffUnrecognised(req: Packet, s: Session, conn: Conn)
    ensures Handle(req, s, conn).response.head.code == 404 <==> !Recognised(req.head)
    ensures Handle(req, s, conn).response.head.code == 200 <==> Recognised(req.head)
    ensures !Recognised(req.head) ==> Handle(req, s, conn).response == NotFound(req.seqNumber)
  {
    var c := Classify(req.head);
    assert c == UnknownCmd <==> !Recognised(req.head);
  }

  /** A SETUP on an audio, video or control stream answers 200 with the dispatcher's session
      token and the server port of that stream, whatever `Session` header the client sent. */
  lemma SetupAnswer(req: Packet, s: Session, conn: Conn, kind: string, params: string)
    requires req.head.Request? && Upper(req.head.cmd) == "SETUP"
    requires req.head.target == Stream(kind, params) && kind in {"audio", "video", "control"}
    ensures var r := Handle(req, s, conn).response;
      && r.head == Response(200, "OK")
      && Get(r.options, "Session") == Some("DEADBEEFCAFE;timeout = 90")
      && (kind == "audio" ==> Get(r.options, "Transport") == Some(TransportValue(s.audioPort)))
      && (kind == "video" ==> Get(r.options, "Transport") == Some(TransportValue(s.videoPort)))
      && (kind == "control" ==> Get(r.options, "Transport") == Some(TransportValue(s.controlPort)))
    ensures Handle(req, s, conn).conn.established
  {
    assert NatToString(SessionTimeout) == "90" by {
      assert NatToString(9) == [DigitChar(9)] == "9";
      assert NatToString(90) == NatToString(9) + [DigitChar(0)];
    }
    assert SessionValue() == "DEADBEEFCAFE;timeout = 90";
  }

  /** DESCRIBE answers 200 with the parameter sets first and the audio surround parameters
      second. */
  lemma DescribeAnswer(req: Packet, s: Session, conn: Conn)
    requires req.head.Request? && Upper(req.head.cmd) == "DESCRIBE"
    ensures var r := Handle(req, s, conn).response;
      && r.head == Response(200, "OK")
      && |r.payloads| == 2
      && r.payloads[0] == ("sprop-parameter-sets", "AAAAAU")
      && r.payloads[1].1 == "fmtp:97 surround-params=" + SurroundParams(s.audio)
  {
  }

  /** Verbs are matched without regard to case: two verbs with the same upper case get the
      same answer. */
  lemma VerbCaseInsensitive(req: Packet, cmd: string, s: Session, conn: Conn)
    requires req.head.Request? && Upper(cmd) == Upper(req.head.cmd)
    ensures Handle(req.(head := req.head.(cmd := cmd)), s, conn) == Handle(req, s, conn)
  {
  }

  /** The answer depends on the request's start line and `CSeq` only: options and payloads
      the client sends, a claimed `Session` token included, change nothing. */
  lemma HeadersIgnored(req: Packet, options: Options, payloads: Payloads, s: Session, conn: Conn)
    ensures Handle(req.(options := options, payloads := payloads), s, conn) == Handle(req, s, conn)
  {
  }

  /** Every answer survives the wire: written out and read back it is the same packet. */
  lemma ReplyRoundTrip(req: Packet, s: Session, conn: Conn)
    ensures Parse(ToString(Handle(req, s, conn).response)) == Some(Handle(req, s, conn).response)
  {
    RoundTrip(Handle(req, s, conn).response);
  }

  /** Number of ANNOUNCE requests in `reqs`. */
  function AnnounceCount(reqs: seq<Packet>): nat {
    if |reqs| == 0 then 0
    else AnnounceCount(reqs[..|reqs| - 1]) + (if Classify(reqs[|reqs| - 1].head) == AnnounceCmd then 1 else 0)
  }

  /** What every answer to `req` satisfies: it carries the request's `CSeq`, it is a 404
      exactly when the verb is not recognised, and a SETUP answer carries the session token. */
  predicate Answers(req: Packet, resp: Packet) {
    && resp.seqNumber == req.seqNumber
    && (resp.head == Response(404, "NOT FOUND") <==> !Recognised(req.head))
    && (Classify(req.head).SetupCmd? ==> Get(resp.options, "Session") == Some(SessionValue()))
  }

  lemma HandleAnswers(req: Packet, s: Session, conn: Conn)
    ensures Answers(req, Handle(req, s, conn).response)
  {
    NotFoundIffUnrecognised(req, s, conn);
  }

  /** Serves the requests of one connection in order. Every request gets an answer with its
      own `CSeq`; every SETUP answer carries the same session token; the connection is
      established exactly when some SETUP succeeded; one stream-ready event is published per
      ANNOUNCE. */
  method Serve(reqs: seq<Packet>, s: Session) returns (responses: seq<Packet>, conn: Conn, events: seq<Event>)
    ensures |responses| == |reqs|
    ensures forall i :: 0 <= i < |reqs| ==> Answers(reqs[i], responses[i])
    ensures conn.established <==> exists i :: 0 <= i < |reqs| && Classify(reqs[i].head).SetupCmd?
    ensures |events| == AnnounceCount(reqs)
    ensures forall e :: e in events ==> e == StreamReady(s.sessionId)
  {
    responses, conn, events := [], Fresh, [];
    var i := 0;
    while i < |reqs|
      invariant 0 <= i <= |reqs|
      invariant |responses| == i
      invariant forall j :: 0 <= j < i ==> Answers(reqs[j], responses[j])
      invariant conn.established <==> exists j :: 0 <= j < i && Classify(reqs[j].head).SetupCmd?
      invariant |events| == AnnounceCount(reqs[..i])
      invariant forall e :: e in events ==> e == StreamReady(s.sessionId)
    {
      var r := Handle(reqs[i], s, conn);
      HandleAnswers(reqs[i], s, conn);
      assert reqs[..i + 1][..i] == reqs[..i];
      responses := responses + [r.response];
      conn := r.conn;
      events := events + r.events;
      i := i + 1;
    }
    assert reqs[..i] == reqs;
  }
}

=== FILE: packet.dfy ===
/** The RTSP-dialect packet model: requests addressed by URI or by named stream, responses,
    the mandatory `CSeq` sequence number, keyed options and ordered payload lines. */
module Packet {
  import opened Wrappers
  import opened Text

  newtype uint16 = x: int | 0 <= x < 0x1_0000

  /** What a request is addressed to: `proto://ip:port` or `streamid=<type><params>`. */
  datatype Target =
    | Uri(protocol: string, ip: string, port: uint16)
    | Stream(kind: string, params: string)

  /** The first line of a packet. */
  datatype Head =
    | Request(cmd: string, target: Target)
    | Response(code: nat, msg: string)

  /** Header lines other than `CSeq`, in insertion order, one entry per key. */
  type Options = seq<(string, string)>

  /** Body lines as (key, value) pairs; keys may repeat and order matters. */
  type Payloads = seq<(string, string)>

  datatype Packet = Packet(head: Head, seqNumber: nat, options: Options, payloads: Payloads)

  const Protocol: string := "RTSP/1.0"
  const SeqHeader: string := "CSeq"
  const StreamTag: string := "streamid="

  // ----- options as an insertion-ordered map -----

  /** The value stored under `k`. */
  function Get(o: Options, k: string): Option<string> {
    if |o| == 0 then None
    else if o[0].0 == k then Some(o[0].1)
    else Get(o[1..], k)
  }

  /** The keys of the entries; `GetIffKey` says that each of them has an entry. */
  function Keys(o: Options): (ks: set<string>)
    ensures forall i :: 0 <= i < |o| ==> o[i].0 in ks
  {
    if |o| == 0 then {} else {o[0].0} + Keys(o[1..])
  }

  /** No key occurs twice. */
  predicate DistinctKeys(o: Options) {
    forall i, j :: 0 <= i < j < |o| ==> o[i].0 != o[j].0
  }

  /** Stores `v` under `k`: an existing entry is overwritten where it stands, a new key
      goes to the end. */
  function Put(o: Options, k: string, v: string): (r: Options)
    ensures Get(r, k) == Some(v)
    ensures forall k' :: k' != k ==> Get(r, k') == Get(o, k')
    ensures Keys(r) == Keys(o) + {k}
  {
    if |o| == 0 then [(k, v)]
    else if o[0].0 == k then
      assert ([(k, v)] + o[1..])[1..] == o[1..];
      [(k, v)] + o[1..]
    else
      var rest := Put(o[1..], k, v);
      assert ([o[0]] + rest)[1..] == rest;
      [o[0]] + rest
  }

  /** A key not yet present is appended behind the existing entries. */
  lemma {:induction false} PutFresh(o: Options, k: string, v: string)
    requires k !in Keys(o)
    ensures Put(o, k, v) == o + [(k, v)]
  {
    if |o| > 0 {
      PutFresh(o[1..], k, v);
      assert o + [(k, v)] == [o[0]] + (o[1..] + [(k, v)]);
    }
  }

  /** A text that no entry has as its key is not a key. */
  lemma {:induction false} NotAKey(o: Options, k: string)
    requires forall i :: 0 <= i < |o| ==> o[i].0 != k
    ensures k !in Keys(o)
  {
    if |o| > 0 {
      NotAKey(o[1..], k);
    }
  }

  /** Storing never creates a second entry for a key. */
  lemma {:induction false} PutDistinct(o: Options, k: string, v: string)
    requires DistinctKeys(o)
    ensures DistinctKeys(Put(o, k, v))
  {
    if |o| > 0 && o[0].0 != k {
      PutDistinct(o[1..], k, v);
      var rest := Put(o[1..], k, v);
      assert forall j :: 0 <= j < |o| - 1 ==> o[1..][j].0 == o[j + 1].0;
      NotAKey(o[1..], o[0].0);
      assert o[0].0 !in Keys(rest);
      assert forall j :: 0 <= j < |rest| ==> rest[j].0 in Keys(rest);
    } else if |o| > 0 {
      var r := Put(o, k, v);
      assert forall j :: 0 <= j < |r| ==> r[j].0 == o[j].0;
    }
  }

  /** A key has a value exactly when it is one of the keys. */
  lemma {:induction false} GetIffKey(o: Options, k: string)
    ensures Get(o, k).Some? <==> k in Keys(o)
  {
    if |o| > 0 {
      GetIffKey(o[1..], k);
    }
  }

  /** Appending an entry adds its key. */
  lemma {:induction false} KeysAppend(o: Options, kv: (string, string))
    ensures Keys(o + [kv]) == Keys(o) + {kv.0}
  {
    if |o| > 0 {
      KeysAppend(o[1..], kv);
      assert (o + [kv])[1..] == o[1..] + [kv];
    }
  }

  // ----- which packets the wire form can carry -----

  /** Text that stays on one line. */
  predicate OneLine(s: string) {
    '\n' !in s
  }

  /** Text that stays inside one space-separated token of the start line. */
  predicate Token(s: string) {
    '\n' !in s && ' ' !in s
  }

  predicate ValidTarget(t: Target) {
    match t
    case Uri(protocol, ip, _) =>
      && |protocol| > 0 && Token(protocol) && ':' !in protocol && !(StreamTag <= protocol)
      && |ip| > 0 && Token(ip) && ':' !in ip
    case Stream(kind, params) =>
      && Token(kind) && '/' !in kind
      && Token(params) && |params| > 0 && params[0] == '/'
  }

  predicate ValidHead(h: Head) {
    match h
    case Request(cmd, target) => |cmd| > 0 && Token(cmd) && ValidTarget(target)
    case Response(code, msg) => 100 <= code <= 999 && OneLine(msg)
  }

  predicate ValidOptionKey(k: string) {
    OneLine(k) && ':' !in k && Trimmed(k) && k != SeqHeader
  }

  predicate ValidOptionValue(v: string) {
    OneLine(v) && Trimmed(v)
  }

  predicate ValidOptions(o: Options) {
    && DistinctKeys(o)
    && forall i :: 0 <= i < |o| ==> ValidOptionKey(o[i].0) && ValidOptionValue(o[i].1)
  }

  predicate ValidPayload(p: (string, string)) {
    OneLine(p.0) && '=' !in p.0 && ':' !in p.0 && OneLine(p.1)
  }

  /** A packet whose every field survives writing and reading back. */
  predicate ValidPacket(p: Packet) {
    && ValidHead(p.head)
    && ValidOptions(p.options)
    && forall i :: 0 <= i < |p.payloads| ==> ValidPayload(p.payloads[i])
  }

  /** Storing a valid entry keeps an option list valid. */
  lemma PutValid(o: Options, k: string, v: string)
    requires ValidOptions(o) && ValidOptionKey(k) && ValidOptionValue(v)
    ensures ValidOptions(Put(o, k, v))
  {
    var r := Put(o, k, v);
    PutDistinct(o, k, v);
    forall i | 0 <= i < |r|
      ensures ValidOptionKey(r[i].0) && ValidOptionValue(r[i].1)
    {
      PutEntry(o, k, v, i);
    }
  }

  /** Every entry of `Put(o, k, v)` is `(k, v)` or an entry of `o`. */
  lemma {:induction false} PutEntry(o: Options, k: string, v: string, i: nat)
    requires i < |Put(o, k, v)|
    ensures Put(o, k, v)[i] == (k, v) || (i < |o| && Put(o, k, v)[i] == o[i])
  {
    if |o| > 0 && o[0].0 != k && i > 0 {
      PutEntry(o[1..], k, v, i - 1);
    }
  }
}

=== FILE: scenarios.dfy ===
/** The protocol fixtures, stated on the model: the raw messages of the parser fixtures and
    the answers the dispatcher gives to the command fixtures.

    Each fixture is split into small facts (one numeral, one line of text, the validity of
    one packet) so that no single proof has to compare long texts character by character. */
module Scenarios {
  import opened Wrappers
  import opened Text
  import opened Packet
  import opened Codec
  import opened CodecLaws
  import opened Commands

  // ----- messages without a sequence number -----

  /** A request line alone, without `CSeq`, is not a packet. */
  lemma RequestWithoutSeqRejected()
    ensures Parse("OPTIONS rtsp://10.1.2.49:48010 RTSP/1.0") == None
  {
    SingleLineRejected("OPTIONS rtsp://10.1.2.49:48010 RTSP/1.0");
  }

  /** A status line alone, without `CSeq`, is not a packet. */
  lemma ResponseWithoutSeqRejected()
    ensures Parse("RTSP/1.0 200 OK") == None
  {
    SingleLineRejected("RTSP/1.0 200 OK");
  }

  // ----- numerals used by the fixtures -----

  lemma Numeral123()
    ensures NatToString(123) == "123"
  {
    assert NatToString(12) == "12";
  }

  lemma Numeral1234()
    ensures NatToString(1234) == "1234"
  {
    Numeral123();
  }

  lemma Numeral1993()
    ensures NatToString(1993) == "1993"
  {
    assert NatToString(19) == "19";
    assert NatToString(199) == "199";
  }

  lemma Numeral48010()
    ensures NatToString(48010) == "48010"
  {
    assert NatToString(48) == "48";
    assert NatToString(480) == "480";
    assert NatToString(4801) == "4801";
  }

  lemma StatusNumerals()
    ensures NatToString(200) == "200" && NatToString(404) == "404"
  {
    assert NatToString(20) == "20" && NatToString(40) == "40";
  }

  // ----- shapes of the fixture messages -----

  /** A packet with no options and no payloads is its start line and its `CSeq` line, each
      ended by `\r\n`, and an empty line. */
  lemma BareMessage(p: Packet, start: string, cseq: string)
    requires ValidPacket(p) && p.options == [] && p.payloads == []
    requires StartLine(p.head) == start && SeqLine(p.seqNumber) == cseq
    ensures Parse(start + "\r\n" + cseq + "\r\n\r\n") == Some(p)
  {
    var ls := [start, cseq, ""];
    assert Lines(p) == ls;
    assert Terminated(ls) == start + "\r\n" + cseq + "\r\n\r\n" by {
      assert ls[1..] == [cseq, ""] && ls[1..][1..] == [""] && ls[1..][1..][1..] == [];
      assert Terminated([""]) == "\r\n";
      assert Terminated([cseq, ""]) == cseq + "\r\n" + "\r\n";
    }
    RoundTrip(p);
  }

  /** A packet whose lines are `head`, then `body`, then `last`, with the endings of `head`
      and `body` chosen line by line and no ending after `last`. */
  lemma MixedMessage(p: Packet, head: seq<string>, hcrlf: seq<bool>, body: seq<string>, bcrlf: seq<bool>, last: string)
    requires ValidPacket(p) && Lines(p) == head + body + [last]
    requires |hcrlf| == |head| && |bcrlf| == |body|
    requires forall i :: 0 <= i < |Lines(p)| ==> NoCR(Lines(p)[i])
    ensures Parse(Joined(head, hcrlf) + (Joined(body, bcrlf) + last)) == Some(p)
  {
    var L := Lines(p);
    assert L[..|L| - 1] == head + body && L[|L| - 1] == last by {
      SplitLast(head + body, last);
    }
    UnterminatedLastLine(p, hcrlf + bcrlf);
    JoinedAppend(head, hcrlf, body, bcrlf);
    StringAssoc(Joined(head, hcrlf), Joined(body, bcrlf), last);
  }

  lemma SplitLast<T>(a: seq<T>, x: T)
    ensures (a + [x])[..|a|] == a && (a + [x])[|a|] == x
  {
  }

  lemma StringAssoc(a: string, b: string, c: string)
    ensures a + b + c == a + (b + c)
  {
  }

  // ----- the three-line fixtures -----

  lemma RequestLineText(cmd: string, t: Target, text: string)
    requires TargetText(t) == text
    ensures StartLine(Request(cmd, t)) == cmd + " " + text + " " + "RTSP/1.0"
  {
  }

  /** A request line written as the command with its blank, the target, and the blank with
      the protocol. */
  lemma RequestLineParts(cmd: string, t: Target, text: string, cmdBlank: string)
    requires TargetText(t) == text && cmd + " " == cmdBlank
    ensures StartLine(Request(cmd, t)) == cmdBlank + text + " RTSP/1.0"
  {
    assert " " + Protocol == " RTSP/1.0";
    assert cmd + " " + text + " " + Protocol == (cmd + " ") + text + (" " + Protocol);
  }

  const BasicRequest: Packet := Packet(Request("MissingNo", Uri("rtsp", "1.1.1.1", 1234)), 1993, [], [])

  const StreamRequest: Packet := Packet(Request("MissingNo", Stream("audio", "/1/2/3")), 1993, [], [])

  const BasicResponse: Packet := Packet(Response(200, "OK"), 123, [], [])

  lemma BasicTarget()
    ensures TargetText(Uri("rtsp", "1.1.1.1", 1234)) == "rtsp://1.1.1.1:1234"
  {
    Numeral1234();
  }

  lemma BasicRequestText()
    ensures "MissingNo" + " " + "rtsp://1.1.1.1:1234" + " " + "RTSP/1.0" == "MissingNo rtsp://1.1.1.1:1234 RTSP/1.0"
  {
  }

  lemma BasicRequestStart()
    ensures StartLine(BasicRequest.head) == "MissingNo rtsp://1.1.1.1:1234 RTSP/1.0"
  {
    BasicTarget();
    RequestLineText("MissingNo", Uri("rtsp", "1.1.1.1", 1234), "rtsp://1.1.1.1:1234");
    BasicRequestText();
  }

  lemma StreamTarget()
    ensures TargetText(Stream("audio", "/1/2/3")) == "streamid=audio/1/2/3"
  {
  }

  lemma StreamRequestText()
    ensures "MissingNo" + " " + "streamid=audio/1/2/3" + " " + "RTSP/1.0" == "MissingNo streamid=audio/1/2/3 RTSP/1.0"
  {
  }

  lemma StreamRequestStart()
    ensures StartLine(StreamRequest.head) == "MissingNo streamid=audio/1/2/3 RTSP/1.0"
  {
    StreamTarget();
    RequestLineText("MissingNo", Stream("audio", "/1/2/3"), "streamid=audio/1/2/3");
    StreamRequestText();
  }

  lemma BasicResponseStart()
    ensures StartLine(BasicResponse.head) == "RTSP/1.0 200 OK"
  {
    StatusNumerals();
  }

  lemma SeqLines()
    ensures SeqLine(1) == "CSeq: 1" && SeqLine(123) == "CSeq: 123" && SeqLine(1993) == "CSeq: 1993"
  {
    Numeral123();
    Numeral1993();
  }

  lemma BasicRequestValid()
    ensures ValidPacket(BasicRequest)
  {
  }

  lemma StreamRequestValid()
    ensures ValidPacket(StreamRequest)
  {
  }

  lemma BasicResponseValid()
    ensures ValidPacket(BasicResponse)
  {
  }

  /** `MissingNo rtsp://1.1.1.1:1234 RTSP/1.0` with `CSeq: 1993`: a request of an unknown verb
      on a URI target, with no options and no payloads. */
  lemma BasicRequestParsed()
    ensures Parse("MissingNo rtsp://1.1.1.1:1234 RTSP/1.0" + "\r\n" + "CSeq: 1993" + "\r\n\r\n")
         == Some(Packet(Request("MissingNo", Uri("rtsp", "1.1.1.1", 1234)), 1993, [], []))
  {
    BasicRequestStart();
    SeqLines();
    BasicRequestValid();
    BareMessage(BasicRequest, "MissingNo rtsp://1.1.1.1:1234 RTSP/1.0", "CSeq: 1993");
  }

  /** `MissingNo streamid=audio/1/2/3 RTSP/1.0` with `CSeq: 1993`: a stream target of type
      `audio` whose parameters are `/1/2/3`. */
  lemma StreamRequestParsed()
    ensures Parse("MissingNo streamid=audio/1/2/3 RTSP/1.0" + "\r\n" + "CSeq: 1993" + "\r\n\r\n")
         == Some(Packet(Request("MissingNo", Stream("audio", "/1/2/3")), 1993, [], []))
  {
    StreamRequestStart();
    SeqLines();
    StreamRequestValid();
    BareMessage(StreamRequest, "MissingNo streamid=audio/1/2/3 RTSP/1.0", "CSeq: 1993");
  }

  /** `RTSP/1.0 200 OK` with `CSeq: 123`: a response with code 200 and message `OK`. */
  lemma BasicResponseParsed()
    ensures Parse("RTSP/1.0 200 OK" + "\r\n" + "CSeq: 123" + "\r\n\r\n") == Some(Packet(Response(200, "OK"), 123, [], []))
  {
    BasicResponseStart();
    SeqLines();
    BasicResponseValid();
    BareMessage(BasicResponse, "RTSP/1.0 200 OK", "CSeq: 123");
  }

  // ----- the fixtures with options, payloads and mixed line endings -----

  const ClientOptions: Options := [("X-GS-ClientVersion", "14"), ("Host", "10.1.2.49")]

  const SdpPayloads: Payloads := [
    ("v", "0"),
    ("o", "android 0 14 IN IPv4 0.0.0.0"),
    ("s", "NVIDIA Streaming Client"),
    ("a", "x-nv-video[0].clientViewportWd:1920"),
    ("a", "x-nv-video[0].clientViewportHt:1080")
  ]

  const VersionLine: string := "v=0"
  const OriginLine: string := "o=android 0 14 IN IPv4 0.0.0.0"
  const SessionLine: string := "s=NVIDIA Streaming Client"
  const ViewportWidthLine: string := "a=x-nv-video[0].clientViewportWd:1920"
  const ViewportHeightLine: string := "a=x-nv-video[0].clientViewportHt:1080"

  /** The body of both complete fixtures but its last line, each line ended by `\n`. */
  const SdpBody: seq<string> := [VersionLine, OriginLine, SessionLine, ViewportWidthLine]

  /** The last body line, which has no line ending. */
  const SdpLast: string := ViewportHeightLine

  const SdpEndings: seq<bool> := [false, false, false, false]

  const CompleteRequest: Packet :=
    Packet(Request("OPTIONS", Uri("rtsp", "10.1.2.49", 48010)), 1, ClientOptions, SdpPayloads)

  const CompleteResponse: Packet := Packet(Response(404, "NOT OK"), 1, ClientOptions, SdpPayloads)

  /** The header block of the complete fixtures: three lines ended by `\n`, the last option
      and the empty line ended by `\r\n`. */
  const HeaderEndings: seq<bool> := [false, false, false, true, true]

  lemma CompleteTarget()
    ensures TargetText(Uri("rtsp", "10.1.2.49", 48010)) == "rtsp://10.1.2.49:48010"
  {
    Numeral48010();
  }

  lemma CompleteRequestText()
    ensures "OPTIONS" + " " + "rtsp://10.1.2.49:48010" + " " + "RTSP/1.0" == "OPTIONS rtsp://10.1.2.49:48010 RTSP/1.0"
  {
  }

  lemma CompleteRequestStart()
    ensures StartLine(CompleteRequest.head) == "OPTIONS rtsp://10.1.2.49:48010 RTSP/1.0"
  {
    CompleteTarget();
    RequestLineText("OPTIONS", Uri("rtsp", "10.1.2.49", 48010), "rtsp://10.1.2.49:48010");
    CompleteRequestText();
  }

  lemma CompleteResponseStart()
    ensures StartLine(CompleteResponse.head) == "RTSP/1.0 404 NOT OK"
  {
    StatusNumerals();
  }

  lemma ClientOptionsText()
    ensures OptionLines(ClientOptions) == ["X-GS-ClientVersion: 14", "Host: 10.1.2.49"]
  {
    var r := OptionLines(ClientOptions);
    assert |r| == 2 && r[0] == "X-GS-ClientVersion: 14" && r[1] == "Host: 10.1.2.49";
  }

  lemma SdpVersionLine()
    ensures PayloadLine(("v", "0")) == VersionLine
  {
  }

  lemma SdpOriginLine()
    ensures PayloadLine(("o", "android 0 14 IN IPv4 0.0.0.0")) == OriginLine
  {
  }

  lemma SdpSessionLine()
    ensures PayloadLine(("s", "NVIDIA Streaming Client")) == SessionLine
  {
  }

  lemma SdpViewportLine()
    ensures PayloadLine(("a", "x-nv-video[0].clientViewportWd:1920")) == ViewportWidthLine
  {
  }

  lemma SdpLastLine()
    ensures PayloadLine(("a", "x-nv-video[0].clientViewportHt:1080")) == ViewportHeightLine
  {
  }

  lemma SdpText()
    ensures PayloadLines(SdpPayloads) == SdpBody + [SdpLast]
  {
    SdpVersionLine();
    SdpOriginLine();
    SdpSessionLine();
    SdpViewportLine();
    SdpLastLine();
    var r := PayloadLines(SdpPayloads);
    assert forall i :: 0 <= i < 5 ==> r[i] == PayloadLine(SdpPayloads[i]);
  }

  lemma ClientOptionsValid()
    ensures ValidOptions(ClientOptions)
  {
  }

  lemma SdpValid()
    ensures forall i :: 0 <= i < |SdpPayloads| ==> ValidPayload(SdpPayloads[i])
  {
  }

  lemma CompleteValid()
    ensures ValidPacket(CompleteRequest) && ValidPacket(CompleteResponse)
  {
    ClientOptionsValid();
    SdpValid();
  }

  lemma ClientHeaderNoCR()
    ensures NoCR("X-GS-ClientVersion: 14") && NoCR("Host: 10.1.2.49") && NoCR("CSeq: 1") && NoCR("")
  {
  }

  lemma SdpNoCR()
    ensures forall i :: 0 <= i < |SdpBody| ==> NoCR(SdpBody[i])
    ensures NoCR(SdpLast)
  {
  }

  /** The lines of a complete fixture packet, given its start line. */
  lemma CompleteLines(p: Packet, start: string)
    requires p.seqNumber == 1 && p.options == ClientOptions && p.payloads == SdpPayloads
    requires StartLine(p.head) == start && NoCR(start)
    ensures Lines(p) == [start, "CSeq: 1", "X-GS-ClientVersion: 14", "Host: 10.1.2.49", ""] + SdpBody + [SdpLast]
    ensures forall i :: 0 <= i < |Lines(p)| ==> NoCR(Lines(p)[i])
  {
    SeqLines();
    ClientOptionsText();
    SdpText();
    ClientHeaderNoCR();
    SdpNoCR();
    var L := Lines(p);
    assert forall i :: 5 <= i < 9 ==> L[i] == SdpBody[i - 5];
  }

  /** The complete request: `\n` and `\r\n` endings mixed, header options trimmed, body lines
      split at their first `=` with the later `:` kept in the value, the last line without
      an ending. */
  lemma CompleteRequestParsed()
    ensures Parse(
              Joined(["OPTIONS rtsp://10.1.2.49:48010 RTSP/1.0", "CSeq: 1", "X-GS-ClientVersion: 14", "Host: 10.1.2.49", ""],
                     HeaderEndings)
              + (Joined(SdpBody, SdpEndings) + SdpLast))
         == Some(Packet(Request("OPTIONS", Uri("rtsp", "10.1.2.49", 48010)), 1, ClientOptions, SdpPayloads))
  {
    CompleteRequestStart();
    CompleteValid();
    CompleteLines(CompleteRequest, "OPTIONS rtsp://10.1.2.49:48010 RTSP/1.0");
    MixedMessage(CompleteRequest, ["OPTIONS rtsp://10.1.2.49:48010 RTSP/1.0", "CSeq: 1", "X-GS-ClientVersion: 14", "Host: 10.1.2.49", ""],
                 HeaderEndings, SdpBody, SdpEndings, SdpLast);
  }

  /** The complete response: a status line with a two-word message, then the same header
      block and body as the complete request. */
  lemma CompleteResponseParsed()
    ensures Parse(
              Joined(["RTSP/1.0 404 NOT OK", "CSeq: 1", "X-GS-ClientVersion: 14", "Host: 10.1.2.49", ""], HeaderEndings)
              + (Joined(SdpBody, SdpEndings) + SdpLast))
         == Some(Packet(Response(404, "NOT OK"), 1, ClientOptions, SdpPayloads))
  {
    CompleteResponseStart();
    CompleteValid();
    CompleteLines(CompleteResponse, "RTSP/1.0 404 NOT OK");
    MixedMessage(CompleteResponse, ["RTSP/1.0 404 NOT OK", "CSeq: 1", "X-GS-ClientVersion: 14", "Host: 10.1.2.49", ""],
                 HeaderEndings, SdpBody, SdpEndings, SdpLast);
  }

  // ----- the command fixtures -----

  /** The session of the command fixtures: a stereo client on 192.168.1.1 whose RTSP,
      control, audio and video ports are 1, 2, 3 and 4. */
  const TestSession: Session :=
    Session(1234, DisplayMode(1920, 1080, 60), AudioMode(2, 1, 1, [FrontLeft, FrontRight]), "192.168.1.1", 1, 2, 3, 4)

  const ClientUri: Target := Uri("rtsp", "10.1.2.49", 48010)

  // header lines of the command fixtures, written as the client sends them

  const ClientVersionLine: string := "X-GS-ClientVersion: 14"
  const HostLine: string := "Host: 10.1.2.49"
  const AcceptLine: string := "Accept: " + "application/sdp"
  const TransportLine: string := "Transport: " + "unicast;X-GS-ClientPort=50000-50001"
  const ModifiedLine: string := "If-Modified-Since: " + "Thu, 01 Jan 1970 00:00:00 GMT"
  const AnnounceHostLine: string := "Host: 0.0.0.0"
  const ContentTypeLine: string := "Content-type: " + "application/sdp"
  const ContentLengthLine: string := "Content-length: " + "1308"

  const SetupAudioStartLine: string := "SETUP " + "streamid=audio/0/0" + " RTSP/1.0"
  const SetupVideoStartLine: string := "SETUP " + "streamid=video/0/0" + " RTSP/1.0"
  const SetupControlStartLine: string := "SETUP " + "streamid=control/0/0" + " RTSP/1.0"
  const AnnounceStartLine: string := "ANNOUNCE " + "streamid=control/13/0" + " RTSP/1.0"

  /** The client's session header, with two blanks after its colon. */
  const ClaimLine: string := "Session:  DEADBEEFCAFE"

  // the options those lines stand for

  const AcceptOption: (string, string) := ("Accept", "application/sdp")
  const TransportOption: (string, string) := ("Transport", "unicast;X-GS-ClientPort=50000-50001")
  const ModifiedOption: (string, string) := ("If-Modified-Since", "Thu, 01 Jan 1970 00:00:00 GMT")

  /** The client's session header as read: the value is trimmed. */
  const ClaimedSession: (string, string) := ("Session", "DEADBEEFCAFE")

  const DescribeOptions: Options := ClientOptions + [AcceptOption]

  /** The options of the first SETUP, which claims no session yet. */
  const SetupRequestOptions: Options := ClientOptions + [TransportOption, ModifiedOption]

  /** The options of the later SETUPs: the session claim sits between `Host` and `Transport`. */
  const ClaimingOptions: Options := ClientOptions + [ClaimedSession, TransportOption, ModifiedOption]

  const AnnounceOptions: Options := [
    ("X-GS-ClientVersion", "14"),
    ("Host", "0.0.0.0"),
    ClaimedSession,
    ("Content-type", "application/sdp"),
    ("Content-length", "1308")
  ]

  // the requests those messages carry

  const MissingNoRequest: Packet := Packet(Request("MissingNo", ClientUri), 1, [], [])
  const OptionsRequest: Packet := Packet(Request("OPTIONS", ClientUri), 1, ClientOptions, [])
  const DescribeRequest: Packet := Packet(Request("DESCRIBE", ClientUri), 2, DescribeOptions, [])
  const SetupAudioRequest: Packet := Packet(Request("SETUP", Stream("audio", "/0/0")), 3, SetupRequestOptions, [])
  const SetupVideoRequest: Packet := Packet(Request("SETUP", Stream("video", "/0/0")), 4, ClaimingOptions, [])
  const SetupControlRequest: Packet := Packet(Request("SETUP", Stream("control", "/0/0")), 5, ClaimingOptions, [])

  function AnnounceRequest(body: Payloads): Packet {
    Packet(Request("ANNOUNCE", Stream("control", "/13/0")), 6, AnnounceOptions, body)
  }

  /** Line endings of the fixtures after OPTIONS: `\n` after every line but the last header line and
      the blank line, which end in `\r\n`. */
  const DescribeEndings: seq<bool> := [false, false, false, false, true, true]
  const SetupAudioEndings: seq<bool> := [false, false, false, false, false, true, true]
  const ClaimingEndings: seq<bool> := [false, false, false, false, false, false, true, true]

  // ----- reading the command fixtures -----

  /** A request without body, written with the endings `crlf`, reads back as itself. */
  lemma WrittenRequest(req: Packet, start: string, header: seq<string>, crlf: seq<bool>)
    requires ValidPacket(req) && req.payloads == []
    requires StartLine(req.head) == start && [SeqLine(req.seqNumber)] + OptionLines(req.options) == header
    requires |crlf| == |header| + 2
    requires NoCR(start) && forall i :: 0 <= i < |header| ==> NoCR(header[i])
    ensures Parse(Joined([start] + header + [""], crlf)) == Some(req)
  {
    BodilessLines(req);
    FramedNoCR(start, header);
    AnyLineEndings(req, crlf);
  }

  /** Without payloads, the wire form of a packet is its start line, its header block and the
      blank line. */
  lemma BodilessLines(p: Packet)
    requires p.payloads == []
    ensures Lines(p) == [StartLine(p.head)] + ([SeqLine(p.seqNumber)] + OptionLines(p.options)) + [""]
  {
    assert PayloadLines(p.payloads) == [];
  }

  /** No line of a framed header block ends in `\r` when none of its own lines does. */
  lemma FramedNoCR(start: string, header: seq<string>)
    requires NoCR(start) && forall i :: 0 <= i < |header| ==> NoCR(header[i])
    ensures forall i :: 0 <= i < |[start] + header + [""]| ==> NoCR(([start] + header + [""])[i])
  {
    var ls := [start] + header + [""];
    forall i | 0 < i < |ls| - 1
      ensures ls[i] == header[i - 1]
    {
    }
  }

  lemma ClaimLineText()
    ensures ClaimLine == "Session" + ":" + "  " + "DEADBEEFCAFE"
    ensures ValidOptionKey("Session") && ValidOptionValue("DEADBEEFCAFE")
    ensures OneLine(ClaimLine) && ClaimLine != "" && NoCR(ClaimLine)
  {
  }

  /** A header block holding the option line `k: v` with blanks `pad` after the colon, at the
      place where the canonical block writes `k: v`, reads like the canonical block. */
  lemma PaddedBlockRead(n: nat, o: Options, pre: seq<string>, k: string, pad: string, v: string, post: seq<string>)
    requires ValidOptions(o) && ValidOptionKey(k) && ValidOptionValue(v)
    requires forall i :: 0 <= i < |pad| ==> IsSpace(pad[i])
    requires [SeqLine(n)] + OptionLines(o) == pre + [OptionLine((k, v))] + post
    ensures ReadHeaders(pre + [k + ":" + pad + v] + post, HeaderAcc(None, [])) == Some(HeaderAcc(Some(n), o))
  {
    HeaderBlockRead(n, o);
    PaddedHeaderRead(pre, k, pad, v, post, HeaderAcc(None, []));
  }

  /** Every line of such a block is a non-empty single line without a final `\r`. */
  lemma PaddedBlockShape(n: nat, o: Options, pre: seq<string>, line: string, kv: (string, string), post: seq<string>)
    requires ValidOptions(o) && [SeqLine(n)] + OptionLines(o) == pre + [OptionLine(kv)] + post
    requires line != "" && OneLine(line) && NoCR(line)
    requires forall i :: 0 <= i < |pre| ==> NoCR(pre[i])
    requires forall i :: 0 <= i < |post| ==> NoCR(post[i])
    ensures forall i :: 0 <= i < |pre + [line] + post| ==>
              var l := (pre + [line] + post)[i]; l != "" && OneLine(l) && NoCR(l)
  {
    var canon := pre + [OptionLine(kv)] + post;
    var header := pre + [line] + post;
    SeqLineIsOneLine(n);
    OptionLinesShape(o);
    forall i | 0 <= i < |header|
      ensures header[i] != "" && OneLine(header[i]) && NoCR(header[i])
    {
      if i < |pre| {
        assert header[i] == canon[i] == pre[i];
      } else if i > |pre| {
        assert header[i] == canon[i] == post[i - |pre| - 1];
      }
      if i != |pre| && i > 0 {
        assert canon[i] == OptionLines(o)[i - 1];
      }
    }
  }

  /** A message whose header block holds the option line `k: v` with blanks `pad` after the
      colon, followed by any body text. */
  lemma PaddedMessage(head: Head, n: nat, o: Options, start: string, pre: seq<string>, k: string, pad: string, v: string,
                      post: seq<string>, crlf: seq<bool>, body: string)
    requires ValidHead(head) && ValidOptions(o) && StartLine(head) == start
    requires ValidOptionKey(k) && ValidOptionValue(v) && forall i :: 0 <= i < |pad| ==> IsSpace(pad[i])
    requires [SeqLine(n)] + OptionLines(o) == pre + [OptionLine((k, v))] + post
    requires |crlf| == |pre| + |post| + 3
    requires NoCR(start) && NoCR(k + ":" + pad + v) && OneLine(pad)
    requires forall i :: 0 <= i < |pre| ==> NoCR(pre[i])
    requires forall i :: 0 <= i < |post| ==> NoCR(post[i])
    ensures Parse(Joined([start] + (pre + [k + ":" + pad + v] + post) + [""], crlf) + body)
         == Some(Packet(head, n, o, ReadPayloads(SplitLines(body))))
  {
    var line := k + ":" + pad + v;
    assert line != "" && OneLine(line) by {
      assert line[|k|] == ':';
    }
    PaddedBlockRead(n, o, pre, k, pad, v, post);
    PaddedBlockShape(n, o, pre, line, (k, v), post);
    StartLineRoundTrip(head);
    MessageRead(start, pre + [line] + post, crlf, body, head, n, o);
  }

  /** An empty body adds no text and no payloads. */
  lemma NoBody(raw: string)
    ensures raw + "" == raw
    ensures ReadPayloads(SplitLines("")) == []
  {
    assert NoneIn("", {'\n'});
    assert SplitLines("") == [""];
    assert NoneIn("", {'=', ':'});
  }

  /** An option list grows by one entry whose key it does not hold yet. */
  lemma OptionsExtended(o: Options, kv: (string, string))
    requires ValidOptions(o) && ValidOptionKey(kv.0) && ValidOptionValue(kv.1)
    requires forall i :: 0 <= i < |o| ==> o[i].0 != kv.0
    ensures ValidOptions(o + [kv])
  {
    NotAKey(o, kv.0);
    PutFresh(o, kv.0, kv.1);
    PutValid(o, kv.0, kv.1);
  }

  /** The surround parameters of a stereo client: 2 channels, 1 stream, 1 coupled stream,
      speakers 0 and 1. */
  lemma StereoSurround()
    ensures SurroundParams(TestSession.audio) == "21101"
  {
    assert NatToString(2) == "2" && NatToString(1) == "1" && NatToString(0) == "0";
    var sps := TestSession.audio.speakers;
    assert sps[1..][1..] == [];
    assert SpeakerDigits(sps[1..]) == "1";
    assert SpeakerDigits(sps) == "01";
  }

  lemma StereoSurroundLine()
    ensures "fmtp:97 surround-params=" + SurroundParams(TestSession.audio) == "fmtp:97 surround-params=21101"
  {
    StereoSurround();
  }

  lemma ServerPorts()
    ensures TransportValue(TestSession.audioPort) == "server_port=3"
    ensures TransportValue(TestSession.videoPort) == "server_port=4"
    ensures TransportValue(TestSession.controlPort) == "server_port=2"
  {
    assert NatToString(3) == "3" && NatToString(4) == "4" && NatToString(2) == "2";
  }

  lemma OptionsVerb()
    ensures Upper("OPTIONS") == "OPTIONS"
  {
    UpperFixed("OPTIONS");
  }

  lemma DescribeVerb()
    ensures Upper("DESCRIBE") == "DESCRIBE"
  {
    UpperFixed("DESCRIBE");
  }

  lemma SetupVerb()
    ensures Upper("SETUP") == "SETUP"
  {
    UpperFixed("SETUP");
  }

  lemma AnnounceVerb()
    ensures Upper("ANNOUNCE") == "ANNOUNCE"
  {
    UpperFixed("ANNOUNCE");
  }

  /** `MissingNo` is none of the verbs the dispatcher knows, whatever its case: its upper
      case is longer than each of them. */
  lemma MissingNoVerb()
    ensures Upper("MissingNo") !in {"OPTIONS", "DESCRIBE", "ANNOUNCE", "SETUP"}
  {
    assert |Upper("MissingNo")| == 9;
  }

  // ----- facts about the command fixtures -----

  lemma MissingNoText()
    ensures "MissingNo" + " " + "rtsp://10.1.2.49:48010" + " " + "RTSP/1.0" == "MissingNo rtsp://10.1.2.49:48010 RTSP/1.0"
  {
  }

  lemma MissingNoStart()
    ensures StartLine(MissingNoRequest.head) == "MissingNo rtsp://10.1.2.49:48010 RTSP/1.0"
  {
    CompleteTarget();
    RequestLineText("MissingNo", ClientUri, "rtsp://10.1.2.49:48010");
    MissingNoText();
  }

  lemma OptionsStart()
    ensures StartLine(OptionsRequest.head) == "OPTIONS rtsp://10.1.2.49:48010 RTSP/1.0"
  {
    CompleteRequestStart();
  }

  lemma DescribeText()
    ensures "DESCRIBE" + " " + "rtsp://10.1.2.49:48010" + " " + "RTSP/1.0" == "DESCRIBE rtsp://10.1.2.49:48010 RTSP/1.0"
  {
  }

  lemma DescribeStart()
    ensures StartLine(DescribeRequest.head) == "DESCRIBE rtsp://10.1.2.49:48010 RTSP/1.0"
  {
    CompleteTarget();
    RequestLineText("DESCRIBE", ClientUri, "rtsp://10.1.2.49:48010");
    DescribeText();
  }

  lemma SetupAudioStart()
    ensures StartLine(SetupAudioRequest.head) == SetupAudioStartLine
  {
    RequestLineParts("SETUP", Stream("audio", "/0/0"), "streamid=audio/0/0", "SETUP ");
  }

  lemma SetupVideoStart()
    ensures StartLine(SetupVideoRequest.head) == SetupVideoStartLine
  {
    RequestLineParts("SETUP", Stream("video", "/0/0"), "streamid=video/0/0", "SETUP ");
  }

  lemma SetupControlStart()
    ensures StartLine(SetupControlRequest.head) == SetupControlStartLine
  {
    RequestLineParts("SETUP", Stream("control", "/0/0"), "streamid=control/0/0", "SETUP ");
  }

  lemma AnnounceStart(body: Payloads)
    ensures StartLine(AnnounceRequest(body).head) == AnnounceStartLine
  {
    RequestLineParts("ANNOUNCE", Stream("control", "/13/0"), "streamid=control/13/0", "ANNOUNCE ");
  }

  lemma CommandSeqLines()
    ensures SeqLine(2) == "CSeq: 2" && SeqLine(3) == "CSeq: 3" && SeqLine(4) == "CSeq: 4"
    ensures SeqLine(5) == "CSeq: 5" && SeqLine(6) == "CSeq: 6"
  {
  }

  lemma AcceptLineText()
    ensures OptionLine(AcceptOption) == AcceptLine
  {
    assert "Accept" + ": " == "Accept: ";
  }

  lemma TransportLineText()
    ensures OptionLine(TransportOption) == TransportLine
  {
    assert "Transport" + ": " == "Transport: ";
  }

  lemma ModifiedLineText()
    ensures OptionLine(ModifiedOption) == ModifiedLine
  {
    assert "If-Modified-Since" + ": " == "If-Modified-Since: ";
  }

  lemma AnnounceHostLineText()
    ensures OptionLine(("Host", "0.0.0.0")) == AnnounceHostLine
  {
  }

  lemma ContentLinesText()
    ensures OptionLine(("Content-type", "application/sdp")) == ContentTypeLine
    ensures OptionLine(("Content-length", "1308")) == ContentLengthLine
  {
    assert "Content-type" + ": " == "Content-type: ";
    assert "Content-length" + ": " == "Content-length: ";
  }

  lemma CommandLinesNoCR()
    ensures NoCR(AcceptLine) && NoCR(TransportLine) && NoCR(ModifiedLine)
    ensures NoCR(AnnounceHostLine) && NoCR(ContentTypeLine) && NoCR(ContentLengthLine)
    ensures NoCR(ClientVersionLine) && NoCR(HostLine)
  {
  }

  lemma CommandSeqNoCR()
    ensures NoCR("CSeq: 2") && NoCR("CSeq: 3") && NoCR("CSeq: 4") && NoCR("CSeq: 5") && NoCR("CSeq: 6")
  {
  }

  lemma DescribeOptionsValid()
    ensures ValidOptions(DescribeOptions)
  {
    ClientOptionsValid();
    OptionsExtended(ClientOptions, AcceptOption);
  }

  lemma TransportEntry()
    ensures ValidOptionKey(TransportOption.0) && ValidOptionValue(TransportOption.1)
  {
  }

  lemma ModifiedEntry()
    ensures ValidOptionKey(ModifiedOption.0) && ValidOptionValue(ModifiedOption.1)
  {
  }

  lemma SetupOptionsValid()
    ensures ValidOptions(SetupRequestOptions)
  {
    ClientOptionsValid();
    TransportEntry();
    ModifiedEntry();
    OptionsExtended(ClientOptions, TransportOption);
    OptionsExtended(ClientOptions + [TransportOption], ModifiedOption);
    assert ClientOptions + [TransportOption] + [ModifiedOption] == SetupRequestOptions;
  }

  lemma ClaimingOptionsValid()
    ensures ValidOptions(ClaimingOptions)
  {
    var o1 := ClientOptions + [ClaimedSession];
    var o2 := o1 + [TransportOption];
    ClientOptionsValid();
    ClaimLineText();
    TransportEntry();
    ModifiedEntry();
    OptionsExtended(ClientOptions, ClaimedSession);
    OptionsExtended(o1, TransportOption);
    OptionsExtended(o2, ModifiedOption);
    assert o2 + [ModifiedOption] == ClaimingOptions;
  }

  lemma AnnounceEntries()
    ensures ValidOptionKey("Host") && ValidOptionValue("0.0.0.0")
    ensures ValidOptionKey("Content-type") && ValidOptionValue("application/sdp")
    ensures ValidOptionKey("Content-length") && ValidOptionValue("1308")
  {
  }

  lemma AnnounceOptionsValid()
    ensures ValidOptions(AnnounceOptions)
  {
    var o := AnnounceOptions;
    ClaimLineText();
    AnnounceEntries();
    assert ValidOptions(o[..2]);
    OptionsExtended(o[..2], o[2]);
    OptionsExtended(o[..3], o[3]);
    OptionsExtended(o[..4], o[4]);
    assert o[..4] + [o[4]] == o;
  }

  lemma ClientUriValid()
    ensures ValidTarget(ClientUri)
  {
  }

  lemma UriHeads()
    ensures ValidHead(MissingNoRequest.head) && ValidHead(OptionsRequest.head) && ValidHead(DescribeRequest.head)
  {
    ClientUriValid();
  }

  lemma SetupHeads()
    ensures ValidHead(SetupAudioRequest.head) && ValidHead(SetupVideoRequest.head) && ValidHead(SetupControlRequest.head)
  {
  }

  lemma AnnounceHead(body: Payloads)
    ensures ValidHead(AnnounceRequest(body).head)
  {
  }

  lemma DescribeHeader()
    ensures [SeqLine(2)] + OptionLines(DescribeOptions) == ["CSeq: 2", ClientVersionLine, HostLine, AcceptLine]
  {
    CommandSeqLines();
    AcceptLineText();
    var r := OptionLines(DescribeOptions);
    assert |r| == 3 && r[0] == ClientVersionLine && r[1] == HostLine && r[2] == AcceptLine;
  }

  lemma SetupAudioHeader()
    ensures [SeqLine(3)] + OptionLines(SetupRequestOptions) == ["CSeq: 3", ClientVersionLine, HostLine, TransportLine, ModifiedLine]
  {
    CommandSeqLines();
    TransportLineText();
    ModifiedLineText();
    var r := OptionLines(SetupRequestOptions);
    assert |r| == 4 && r[0] == ClientVersionLine && r[1] == HostLine && r[2] == TransportLine && r[3] == ModifiedLine;
  }

  /** The canonical header block of a claiming SETUP with sequence number `n`. */
  lemma ClaimingHeader(n: nat, cseq: string)
    requires SeqLine(n) == cseq
    ensures [SeqLine(n)] + OptionLines(ClaimingOptions)
         == [cseq, ClientVersionLine, HostLine] + [OptionLine(ClaimedSession)] + [TransportLine, ModifiedLine]
  {
    TransportLineText();
    ModifiedLineText();
    var r := OptionLines(ClaimingOptions);
    assert |r| == 5 && r[0] == ClientVersionLine && r[1] == HostLine && r[2] == OptionLine(ClaimedSession);
    assert r[3] == TransportLine && r[4] == ModifiedLine;
  }

  lemma AnnounceHeader()
    ensures [SeqLine(6)] + OptionLines(AnnounceOptions)
         == ["CSeq: 6", ClientVersionLine, AnnounceHostLine] + [OptionLine(ClaimedSession)] + [ContentTypeLine, ContentLengthLine]
  {
    CommandSeqLines();
    AnnounceHostLineText();
    ContentLinesText();
    var r := OptionLines(AnnounceOptions);
    assert |r| == 5 && r[0] == ClientVersionLine && r[1] == AnnounceHostLine && r[2] == OptionLine(ClaimedSession);
    assert r[3] == ContentTypeLine && r[4] == ContentLengthLine;
  }

  // ----- the command fixtures, from the raw message to the answer -----

  /** The header block of a claiming fixture, spliced around its session line. */
  lemma ClaimingLines<T>(start: T, a: T, b: T, c: T, claim: T, e: T, f: T, blank: T)
    ensures [start] + ([a, b, c] + [claim] + [e, f]) + [blank] == [start, a, b, c, claim, e, f, blank]
  {
  }

  /** The raw messages of the command fixtures. */
  const MissingNoMessage: string := "MissingNo rtsp://10.1.2.49:48010 RTSP/1.0" + "\r\n" + "CSeq: 1" + "\r\n\r\n"

  const OptionsMessage: string :=
    Terminated(["OPTIONS rtsp://10.1.2.49:48010 RTSP/1.0", "CSeq: 1", ClientVersionLine, HostLine, ""])

  const DescribeMessage: string :=
    Joined(["DESCRIBE rtsp://10.1.2.49:48010 RTSP/1.0", "CSeq: 2", ClientVersionLine, HostLine, AcceptLine, ""],
           DescribeEndings)

  const SetupAudioMessage: string :=
    Joined([SetupAudioStartLine, "CSeq: 3", ClientVersionLine, HostLine, TransportLine, ModifiedLine, ""],
           SetupAudioEndings)

  const SetupVideoMessage: string :=
    Joined([SetupVideoStartLine, "CSeq: 4", ClientVersionLine, HostLine, ClaimLine,
            TransportLine, ModifiedLine, ""], ClaimingEndings)

  const SetupControlMessage: string :=
    Joined([SetupControlStartLine, "CSeq: 5", ClientVersionLine, HostLine, ClaimLine,
            TransportLine, ModifiedLine, ""], ClaimingEndings)

  /** The ANNOUNCE header block, followed by the description `body`. */
  function AnnounceMessage(body: string): string {
    Joined([AnnounceStartLine, "CSeq: 6", ClientVersionLine, AnnounceHostLine, ClaimLine,
            ContentTypeLine, ContentLengthLine, ""], ClaimingEndings) + body
  }

  lemma MissingNoRead()
    ensures Parse(MissingNoMessage) == Some(MissingNoRequest)
  {
    MissingNoStart();
    SeqLines();
    UriHeads();
    BareMessage(MissingNoRequest, "MissingNo rtsp://10.1.2.49:48010 RTSP/1.0", "CSeq: 1");
  }

  lemma OptionsRead()
    ensures Parse(OptionsMessage) == Some(OptionsRequest)
  {
    assert Lines(OptionsRequest) == ["OPTIONS rtsp://10.1.2.49:48010 RTSP/1.0", "CSeq: 1", ClientVersionLine, HostLine, ""] by {
      OptionsStart();
      SeqLines();
      ClientOptionsText();
      assert PayloadLines([]) == [];
    }
    UriHeads();
    ClientOptionsValid();
    RoundTrip(OptionsRequest);
  }

  lemma DescribeRead()
    ensures Parse(DescribeMessage) == Some(DescribeRequest)
  {
    var header := ["CSeq: 2", ClientVersionLine, HostLine, AcceptLine];
    var start := "DESCRIBE rtsp://10.1.2.49:48010 RTSP/1.0";
    assert [start] + header + [""] == [start, "CSeq: 2", ClientVersionLine, HostLine, AcceptLine, ""];
    DescribeStart();
    DescribeHeader();
    UriHeads();
    DescribeOptionsValid();
    CommandLinesNoCR();
    CommandSeqNoCR();
    WrittenRequest(DescribeRequest, start, header, DescribeEndings);
  }

  lemma SetupAudioRead()
    ensures Parse(SetupAudioMessage) == Some(SetupAudioRequest)
  {
    var header := ["CSeq: 3", ClientVersionLine, HostLine, TransportLine, ModifiedLine];
    var start := SetupAudioStartLine;
    assert [start] + header + [""] == [start, "CSeq: 3", ClientVersionLine, HostLine, TransportLine, ModifiedLine, ""];
    SetupAudioStart();
    SetupAudioHeader();
    SetupHeads();
    SetupOptionsValid();
    CommandLinesNoCR();
    CommandSeqNoCR();
    WrittenRequest(SetupAudioRequest, start, header, SetupAudioEndings);
  }

  lemma SetupVideoRead()
    ensures Parse(SetupVideoMessage) == Some(SetupVideoRequest)
  {
    var start := SetupVideoStartLine;
    var pre := ["CSeq: 4", ClientVersionLine, HostLine];
    var post := [TransportLine, ModifiedLine];
    ClaimingLines(start, "CSeq: 4", ClientVersionLine, HostLine, ClaimLine, TransportLine, ModifiedLine, "");
    SetupVideoStart();
    CommandSeqLines();
    ClaimingHeader(4, "CSeq: 4");
    SetupHeads();
    ClaimingOptionsValid();
    CommandLinesNoCR();
    CommandSeqNoCR();
    ClaimLineText();
    NoBody(Joined([start] + (pre + [ClaimLine] + post) + [""], ClaimingEndings));
    PaddedMessage(SetupVideoRequest.head, 4, ClaimingOptions, start, pre, "Session", "  ", "DEADBEEFCAFE", post, ClaimingEndings, "");
  }

  lemma SetupControlRead()
    ensures Parse(SetupControlMessage) == Some(SetupControlRequest)
  {
    var start := SetupControlStartLine;
    var pre := ["CSeq: 5", ClientVersionLine, HostLine];
    var post := [TransportLine, ModifiedLine];
    ClaimingLines(start, "CSeq: 5", ClientVersionLine, HostLine, ClaimLine, TransportLine, ModifiedLine, "");
    SetupControlStart();
    CommandSeqLines();
    ClaimingHeader(5, "CSeq: 5");
    SetupHeads();
    ClaimingOptionsValid();
    CommandLinesNoCR();
    CommandSeqNoCR();
    ClaimLineText();
    NoBody(Joined([start] + (pre + [ClaimLine] + post) + [""], ClaimingEndings));
    PaddedMessage(SetupControlRequest.head, 5, ClaimingOptions, start, pre, "Session", "  ", "DEADBEEFCAFE", post, ClaimingEndings, "");
  }

  lemma AnnounceRead(body: string)
    ensures Parse(AnnounceMessage(body)) == Some(AnnounceRequest(ReadPayloads(SplitLines(body))))
  {
    var start := AnnounceStartLine;
    var pre := ["CSeq: 6", ClientVersionLine, AnnounceHostLine];
    var post := [ContentTypeLine, ContentLengthLine];
    ClaimingLines(start, "CSeq: 6", ClientVersionLine, AnnounceHostLine, ClaimLine, ContentTypeLine, ContentLengthLine, "");
    AnnounceStart([]);
    AnnounceHeader();
    AnnounceHead([]);
    AnnounceOptionsValid();
    CommandLinesNoCR();
    CommandSeqNoCR();
    ClaimLineText();
    PaddedMessage(AnnounceRequest([]).head, 6, AnnounceOptions, start, pre, "Session", "  ", "DEADBEEFCAFE", post, ClaimingEndings, body);
  }

  /** `MissingNo` with `CSeq: 1`, both lines ended by `\r\n`: an unknown verb is answered 404
      with the same number. */
  lemma MissingNoAnswered()
    ensures Parse(MissingNoMessage) == Some(MissingNoRequest)
    ensures var r := Handle(MissingNoRequest, TestSession, Fresh).response;
      r.head.Response? && r.head.code == 404 && r.seqNumber == 1
  {
    MissingNoRead();
    MissingNoVerb();
    NotFoundIffUnrecognised(MissingNoRequest, TestSession, Fresh);
  }

  /** OPTIONS with `CSeq: 1`, every line ended by `\r\n`, is answered 200 with the same number. */
  lemma OptionsAnswered()
    ensures Parse(OptionsMessage) == Some(OptionsRequest)
    ensures var r := Handle(OptionsRequest, TestSession, Fresh).response;
      r.head.Response? && r.head.code == 200 && r.seqNumber == 1
  {
    OptionsRead();
    OptionsVerb();
  }

  /** DESCRIBE with `CSeq: 2` is answered 200 with the parameter sets and the stereo surround
      parameters. */
  lemma DescribeAnswered()
    ensures Parse(DescribeMessage) == Some(DescribeRequest)
    ensures var r := Handle(DescribeRequest, TestSession, Fresh).response;
      && r.head.Response? && r.head.code == 200 && r.seqNumber == 2
      && |r.payloads| >= 2
      && r.payloads[0] == ("sprop-parameter-sets", "AAAAAU")
      && r.payloads[1].1 == "fmtp:97 surround-params=21101"
  {
    DescribeRead();
    DescribeVerb();
    DescribeAnswer(DescribeRequest, TestSession, Fresh);
    StereoSurroundLine();
  }

  /** SETUP of `streamid=audio/0/0` with `CSeq: 3` is answered 200 with the session token and
      the audio port. */
  lemma SetupAudioAnswered()
    ensures Parse(SetupAudioMessage) == Some(SetupAudioRequest)
    ensures var r := Handle(SetupAudioRequest, TestSession, Fresh).response;
      && r.head.Response? && r.head.code == 200 && r.seqNumber == 3
      && Get(r.options, "Session") == Some("DEADBEEFCAFE;timeout = 90")
      && Get(r.options, "Transport") == Some("server_port=3")
  {
    SetupAudioRead();
    SetupVerb();
    SetupAnswer(SetupAudioRequest, TestSession, Fresh, "audio", "/0/0");
    ServerPorts();
  }

  /** SETUP of `streamid=video/0/0` with `CSeq: 4`, claiming the session with two blanks after
      the colon, is answered 200 with the session token and the video port. */
  lemma SetupVideoAnswered()
    ensures Parse(SetupVideoMessage) == Some(SetupVideoRequest)
    ensures var r := Handle(SetupVideoRequest, TestSession, Fresh).response;
      && r.head.Response? && r.head.code == 200 && r.seqNumber == 4
      && Get(r.options, "Session") == Some("DEADBEEFCAFE;timeout = 90")
      && Get(r.options, "Transport") == Some("server_port=4")
  {
    SetupVideoRead();
    SetupVerb();
    SetupAnswer(SetupVideoRequest, TestSession, Fresh, "video", "/0/0");
    ServerPorts();
  }

  /** SETUP of `streamid=control/0/0` with `CSeq: 5`, claiming the session likewise, is
      answered 200 with the session token and the control port. */
  lemma SetupControlAnswered()
    ensures Parse(SetupControlMessage) == Some(SetupControlRequest)
    ensures var r := Handle(SetupControlRequest, TestSession, Fresh).response;
      && r.head.Response? && r.head.code == 200 && r.seqNumber == 5
      && Get(r.options, "Session") == Some("DEADBEEFCAFE;timeout = 90")
      && Get(r.options, "Transport") == Some("server_port=2")
  {
    SetupControlRead();
    SetupVerb();
    SetupAnswer(SetupControlRequest, TestSession, Fresh, "control", "/0/0");
    ServerPorts();
  }

  /** ANNOUNCE of `streamid=control/13/0` with `CSeq: 6`, followed by any description body,
      reads the body line by line and is answered 200; the session is told its stream is
      ready. */
  lemma AnnounceAnswered(body: string)
    ensures Parse(AnnounceMessage(body)) == Some(AnnounceRequest(ReadPayloads(SplitLines(body))))
    ensures var reply := Handle(AnnounceRequest(ReadPayloads(SplitLines(body))), TestSession, Fresh);
      && reply.response.head.Response? && reply.response.head.code == 200 && reply.response.seqNumber == 6
      && reply.events == [StreamReady(1234)]
  {
    AnnounceRead(body);
    AnnounceHandled(ReadPayloads(SplitLines(body)));
  }

  lemma AnnounceHandled(body: Payloads)
    ensures var reply := Handle(AnnounceRequest(body), TestSession, Fresh);
      && reply.response.head.Response? && reply.response.head.code == 200 && reply.response.seqNumber == 6
      && reply.events == [StreamReady(1234)]
  {
    AnnounceVerb();
  }
}

=== FILE: text.dfy ===
/** Character-level helpers of the RTSP codec: searching, splitting, trimming,
    decimal numbers and line splitting with both `\n` and `\r\n` endings. */
module Text {
  import opened Wrappers

  /** True when no element of `s` belongs to `xs`. */
  predicate NoneIn<T(==)>(s: seq<T>, xs: set<T>) {
    forall k :: 0 <= k < |s| ==> s[k] !in xs
  }

  /** Position of the first element of `s` that belongs to `xs`. */
  function FirstIn<T(==)>(s: seq<T>, xs: set<T>): (r: Option<nat>)
    ensures r.Some? ==> r.value < |s| && s[r.value] in xs && NoneIn(s[..r.value], xs)
    ensures r.None? <==> NoneIn(s, xs)
  {
    if |s| == 0 then None
    else if s[0] in xs then Some(0)
    else match FirstIn(s[1..], xs)
      case None => None
      case Some(i) =>
        assert s[..i + 1] == [s[0]] + s[1..][..i];
        Some(i + 1)
  }

  /** Splits `s` around its first element that belongs to `xs`; the separator itself
      belongs to neither part. */
  function SplitFirst<T(==)>(s: seq<T>, xs: set<T>): (r: Option<(seq<T>, seq<T>)>)
    ensures r.Some? ==>
              && |r.value.0| < |s|
              && s == r.value.0 + [s[|r.value.0|]] + r.value.1
              && s[|r.value.0|] in xs
              && NoneIn(r.value.0, xs)
    ensures r.None? <==> NoneIn(s, xs)
  {
    match FirstIn(s, xs)
    case None => None
    case Some(i) =>
      assert s == s[..i] + [s[i]] + s[i + 1..];
      Some((s[..i], s[i + 1..]))
  }

  /** Splitting at a separator that is preceded only by non-separators recovers both sides. */
  lemma SplitFirstAt<T>(a: seq<T>, x: T, b: seq<T>, xs: set<T>)
    requires NoneIn(a, xs) && x in xs
    ensures SplitFirst(a + [x] + b, xs) == Some((a, b))
  {
    var s := a + [x] + b;
    assert s[|a|] == x;
    assert !NoneIn(s, xs);
    var r := SplitFirst(s, xs).value;
    assert forall k :: 0 <= k < |a| ==> s[k] == a[k];
    assert forall k :: 0 <= k < |r.0| ==> s[k] == r.0[k];
    assert |r.0| == |a|;
    assert r.0 == s[..|a|] == a;
    assert r.1 == s[|a| + 1..] == b;
  }

  // ----- whitespace -----

  predicate IsSpace(c: char) {
    c == ' ' || c == '\t'
  }

  /** Neither end of `s` is a space or a tab. */
  predicate Trimmed(s: string) {
    |s| == 0 || (!IsSpace(s[0]) && !IsSpace(s[|s| - 1]))
  }

  /** Drops the leading spaces and tabs of `s`. */
  function TrimStart(s: string): (r: string)
    ensures |r| <= |s| && r == s[|s| - |r|..]
    ensures forall i :: 0 <= i < |s| - |r| ==> IsSpace(s[i])
    ensures |r| == 0 || !IsSpace(r[0])
  {
    if |s| > 0 && IsSpace(s[0]) then TrimStart(s[1..]) else s
  }

  /** Drops the trailing spaces and tabs of `s`. */
  function TrimEnd(s: string): (r: string)
    ensures |r| <= |s| && r == s[..|r|]
    ensures forall i :: |r| <= i < |s| ==> IsSpace(s[i])
    ensures |r| == 0 || !IsSpace(r[|r| - 1])
  {
    if |s| > 0 && IsSpace(s[|s| - 1]) then TrimEnd(s[..|s| - 1]) else s
  }

  /** `s` without surrounding spaces and tabs: a trimmed slice of `s` with only blanks cut away. */
  function Trim(s: string): (r: string)
    ensures Trimmed(r)
    ensures |r| <= |s|
    ensures forall c :: c in r ==> c in s
  {
    var t := TrimStart(s);
    var r := TrimEnd(t);
    r
  }

  /** Trimming leaves an already trimmed text alone, also after the single space a header
      line puts behind its colon. */
  lemma TrimSpaced(s: string)
    requires Trimmed(s)
    ensures Trim(s) == s
    ensures Trim(" " + s) == s
  {
    assert (" " + s)[1..] == s;
  }

  /** Any run of blanks in front of a trimmed text is cut away, however long. */
  lemma {:induction false} TrimPadded(pad: string, s: string)
    requires forall i :: 0 <= i < |pad| ==> IsSpace(pad[i])
    requires Trimmed(s)
    ensures Trim(pad + s) == s
  {
    if |pad| > 0 {
      assert (pad + s)[1..] == pad[1..] + s;
      TrimPadded(pad[1..], s);
    }
  }

  // ----- decimal numbers -----

  predicate IsDigit(c: char) {
    '0' <= c <= '9'
  }

  predicate AllDigits(s: string) {
    forall i :: 0 <= i < |s| ==> IsDigit(s[i])
  }

  function DigitChar(d: nat): (c: char)
    requires d < 10
  {
    ('0' as int + d) as char
  }

  /** Value of the decimal numeral `s`, most significant digit first. */
  function DigitsValue(s: string): nat
    requires AllDigits(s)
  {
    if |s| == 0 then 0
    else DigitsValue(s[..|s| - 1]) * 10 + (s[|s| - 1] as int - '0' as int)
  }

  /** Canonical decimal numeral of `n`: digits only, no leading zero. */
  function NatToString(n: nat): (r: string)
    ensures |r| > 0 && AllDigits(r)
    ensures r[0] == '0' ==> n == 0
  {
    if n < 10 then [DigitChar(n)] else NatToString(n / 10) + [DigitChar(n % 10)]
  }

  /** Reads a non-empty numeral; anything else is rejected. */
  function ParseNat(s: string): (r: Option<nat>)
    ensures r.Some? <==> |s| > 0 && AllDigits(s)
  {
    if |s| > 0 && AllDigits(s) then Some(DigitsValue(s)) else None
  }

  /** Reading back the canonical numeral of `n` gives `n`. */
  lemma {:induction false} NatRoundTrip(n: nat)
    ensures ParseNat(NatToString(n)) == Some(n)
    ensures DigitsValue(NatToString(n)) == n
  {
    var s := NatToString(n);
    if n < 10 {
      assert s[..|s| - 1] == [];
      assert s[0] as int - '0' as int == n;
      assert DigitsValue(s) == n;
    } else {
      NatRoundTrip(n / 10);
      assert s[..|s| - 1] == NatToString(n / 10);
      assert s[|s| - 1] as int - '0' as int == n % 10;
    }
    assert ParseNat(s) == Some(DigitsValue(s));
  }

  /** Numbers from 100 to 999 are written with exactly three digits, the first not zero. */
  lemma ThreeDigits(n: nat)
    requires 100 <= n <= 999
    ensures |NatToString(n)| == 3 && NatToString(n)[0] != '0'
  {
    assert NatToString(n / 100) == [DigitChar(n / 100)];
    assert n / 10 / 10 == n / 100;
  }

  /** A three-digit numeral whose first digit is not zero denotes a number from 100 to 999. */
  lemma ThreeDigitRange(s: string)
    requires |s| == 3 && AllDigits(s) && s[0] != '0'
    ensures 100 <= DigitsValue(s) <= 999
  {
    assert s[..2][..1] == s[..1];
    assert s[..1][..0] == [];
    assert DigitsValue(s[..1]) == s[0] as int - '0' as int;
    assert DigitsValue(s[..2]) == DigitsValue(s[..1]) * 10 + (s[1] as int - '0' as int);
  }

  // ----- lines -----

  /** Removes one `\r` at the end of a line, so `\r\n` and `\n` endings read alike. */
  function StripCR(l: string): (r: string)
    ensures r == l || l == r + "\r"
  {
    if |l| > 0 && l[|l| - 1] == '\r' then l[..|l| - 1] else l
  }

  /** Splits a message into lines at each `\n`, dropping one `\r` before it. */
  function SplitLines(s: string): (r: seq<string>)
    ensures |r| > 0
    ensures forall i :: 0 <= i < |r| ==> '\n' !in r[i]
    decreases |s|
  {
    match SplitFirst(s, {'\n'})
    case None => [StripCR(s)]
    case Some((line, rest)) => [StripCR(line)] + SplitLines(rest)
  }

  /** The lines `ls`, each ended by `\r\n`. */
  function Terminated(ls: seq<string>): string {
    if |ls| == 0 then "" else ls[0] + "\r\n" + Terminated(ls[1..])
  }

  /** A `\n` between two texts separates their lines and nothing else. */
  lemma {:induction false} SplitLinesAppend(x: string, y: string)
    ensures SplitLines(x + "\n" + y) == SplitLines(x) + SplitLines(y)
    decreases |x|
  {
    var s := x + "\n" + y;
    match SplitFirst(x, {'\n'})
    case None =>
      SplitFirstAt(x, '\n', y, {'\n'});
      assert s == x + ['\n'] + y;
    case Some((a, x')) =>
      assert x == a + ['\n'] + x';
      assert s == a + ['\n'] + (x' + "\n" + y);
      SplitFirstAt(a, '\n', x' + "\n" + y, {'\n'});
      SplitLinesAppend(x', y);
  }

  /** An extra `\r` behind a text that does not already end in one changes no line. */
  lemma {:induction false} SplitLinesCR(x: string)
    requires |x| == 0 || x[|x| - 1] != '\r'
    ensures SplitLines(x + "\r") == SplitLines(x)
    decreases |x|
  {
    match SplitFirst(x, {'\n'})
    case None =>
      assert NoneIn(x + "\r", {'\n'});
    case Some((a, x')) =>
      assert x == a + ['\n'] + x';
      assert x + "\r" == a + ['\n'] + (x' + "\r");
      SplitFirstAt(a, '\n', x' + "\r", {'\n'});
      SplitLinesCR(x');
  }

  /** `\r\n` and `\n` are interchangeable line endings, even mixed in one message. */
  lemma LineEndingsAgree(x: string, y: string)
    requires |x| == 0 || x[|x| - 1] != '\r'
    ensures SplitLines(x + "\r\n" + y) == SplitLines(x + "\n" + y)
  {
    assert x + "\r\n" + y == (x + "\r") + "\n" + y;
    SplitLinesAppend(x + "\r", y);
    SplitLinesAppend(x, y);
    SplitLinesCR(x);
  }

  /** Splitting `\r\n`-terminated lines gives them back, followed by the empty remainder. */
  lemma {:induction false} SplitTerminated(ls: seq<string>)
    requires forall i :: 0 <= i < |ls| ==> '\n' !in ls[i]
    ensures SplitLines(Terminated(ls)) == ls + [""]
  {
    if |ls| == 0 {
      assert NoneIn("", {'\n'});
    } else {
      var l := ls[0];
      var rest := Terminated(ls[1..]);
      assert SplitLines(Terminated(ls)) == [l] + SplitLines(rest) by {
        assert NoneIn(l + "\r", {'\n'}) by {
          assert forall k :: 0 <= k < |l| ==> l[k] in l;
        }
        assert Terminated(ls) == (l + "\r") + ['\n'] + rest;
        SplitFirstAt(l + "\r", '\n', rest, {'\n'});
        assert StripCR(l + "\r") == l;
      }
      assert SplitLines(rest) == ls[1..] + [""] by {
        SplitTerminated(ls[1..]);
      }
      ConsAppend(ls, [""]);
    }
  }

  /** True when `l` does not end in `\r`, so no line ending can swallow part of it. */
  predicate NoCR(l: string) {
    |l| == 0 || l[|l| - 1] != '\r'
  }

  /** The lines `ls`, each ended by `\r\n` where `crlf` says so and by `\n` elsewhere. */
  function Joined(ls: seq<string>, crlf: seq<bool>): string
    requires |crlf| == |ls|
  {
    if |ls| == 0 then "" else ls[0] + (if crlf[0] then "\r\n" else "\n") + Joined(ls[1..], crlf[1..])
  }

  /** Joining one more line adds its text and its ending at the back. */
  lemma {:induction false} JoinedSnoc(ls: seq<string>, crlf: seq<bool>, l: string, cr: bool)
    requires |crlf| == |ls|
    ensures Joined(ls + [l], crlf + [cr]) == Joined(ls, crlf) + l + (if cr then "\r\n" else "\n")
  {
    if |ls| > 0 {
      assert (ls + [l])[1..] == ls[1..] + [l];
      assert (crlf + [cr])[1..] == crlf[1..] + [cr];
      JoinedSnoc(ls[1..], crlf[1..], l, cr);
    }
  }

  /** Joining two runs of lines one after the other is joining each and concatenating. */
  lemma {:induction false} JoinedAppend(a: seq<string>, ca: seq<bool>, b: seq<string>, cb: seq<bool>)
    requires |ca| == |a| && |cb| == |b|
    ensures Joined(a + b, ca + cb) == Joined(a, ca) + Joined(b, cb)
  {
    if |a| > 0 {
      assert (a + b)[1..] == a[1..] + b;
      assert (ca + cb)[1..] == ca[1..] + cb;
      JoinedAppend(a[1..], ca[1..], b, cb);
    } else {
      assert a + b == b && ca + cb == cb;
    }
  }

  /** Lines ended by any mix of `\n` and `\r\n` split back into those lines, followed by
      the lines of whatever comes after them. */
  lemma {:induction false} SplitJoined(ls: seq<string>, crlf: seq<bool>, tail: string)
    requires |crlf| == |ls|
    requires forall i :: 0 <= i < |ls| ==> '\n' !in ls[i] && NoCR(ls[i])
    ensures SplitLines(Joined(ls, crlf) + tail) == ls + SplitLines(tail)
  {
    if |ls| == 0 {
      assert Joined(ls, crlf) + tail == tail;
    } else {
      var rest := Joined(ls[1..], crlf[1..]) + tail;
      assert SplitLines(Joined(ls, crlf) + tail) == [ls[0]] + SplitLines(rest) by {
        SplitJoinedHead(ls, crlf, tail);
      }
      assert SplitLines(rest) == ls[1..] + SplitLines(tail) by {
        SplitJoined(ls[1..], crlf[1..], tail);
      }
      ConsAppend(ls, SplitLines(tail));
    }
  }

  /** A start line, a block of lines and a blank line, followed by any text, split into
      exactly those lines and then the lines of the text. */
  lemma FramedLines(start: string, block: seq<string>, crlf: seq<bool>, tail: string)
    requires |crlf| == |block| + 2
    requires '\n' !in start && NoCR(start)
    requires forall i :: 0 <= i < |block| ==> '\n' !in block[i] && NoCR(block[i])
    ensures SplitLines(Joined([start] + block + [""], crlf) + tail) == [start] + (block + [""] + SplitLines(tail))
  {
    var ls := [start] + block + [""];
    assert forall i :: 0 <= i < |ls| ==> '\n' !in ls[i] && NoCR(ls[i]) by {
      forall i | 0 < i < |ls| - 1
        ensures ls[i] == block[i - 1]
      {
      }
    }
    SplitJoined(ls, crlf, tail);
    AssocFrame(start, block, "", SplitLines(tail));
  }

  lemma AssocFrame<T>(first: T, middle: seq<T>, last: T, rest: seq<T>)
    ensures [first] + middle + [last] + rest == [first] + (middle + [last] + rest)
  {
  }

  lemma ConsAppend<T>(a: seq<T>, b: seq<T>)
    requires |a| > 0
    ensures [a[0]] + (a[1..] + b) == a + b
  {
    assert a == [a[0]] + a[1..];
  }

  lemma AppendFirst<T>(a: seq<T>, b: seq<T>)
    requires |b| > 0
    ensures (a + [b[0]]) + b[1..] == a + b
  {
    assert b == [b[0]] + b[1..];
  }

  lemma SnocLast<T>(a: seq<T>)
    requires |a| > 0
    ensures a[..|a| - 1] + [a[|a| - 1]] == a
  {
  }

  /** The first joined line splits off by itself. */
  lemma SplitJoinedHead(ls: seq<string>, crlf: seq<bool>, tail: string)
    requires |crlf| == |ls| > 0
    requires '\n' !in ls[0] && NoCR(ls[0])
    ensures SplitLines(Joined(ls, crlf) + tail) == [ls[0]] + SplitLines(Joined(ls[1..], crlf[1..]) + tail)
  {
    var l := ls[0];
    var rest := Joined(ls[1..], crlf[1..]) + tail;
    if crlf[0] {
      assert Joined(ls, crlf) + tail == (l + "\r") + "\n" + rest;
      SplitLinesAppend(l + "\r", rest);
    } else {
      assert Joined(ls, crlf) + tail == l + "\n" + rest;
      SplitLinesAppend(l, rest);
    }
    OneLineSplit(l, crlf[0]);
  }

  /** One line, with or without the `\r` of its ending, splits into itself. */
  lemma OneLineSplit(l: string, cr: bool)
    requires '\n' !in l && NoCR(l)
    ensures SplitLines(if cr then l + "\r" else l) == [l]
  {
    if cr {
      assert NoneIn(l + "\r", {'\n'}) by {
        assert forall k :: 0 <= k < |l| ==> l[k] in l;
      }
      assert StripCR(l + "\r") == l;
    } else {
      assert NoneIn(l, {'\n'}) by {
        assert forall k :: 0 <= k < |l| ==> l[k] in l;
      }
    }
  }
}

=== FILE: wrappers.dfy ===
/** The two outcome types of this model. Both supply the three members that the `:-`
    operator needs, so a step that fails ends the computation with that failure. */
module Wrappers {

  /** `None` is how the codec says the text is not an RTSP packet; the FEC receiver uses it
      for a shard that did not arrive. */
  datatype Option<+T> = None | Some(value: T) {

    predicate IsFailure() {
      None?
    }

    function PropagateFailure<U>(): Option<U>
      requires None?
    {
      None
    }

    function Extract(): T
      requires Some?
    {
      value
    }
  }

  /** The packetizer's outcome: the shard set, or why the frame was refused. */
  datatype Result<+R, +E> = Success(value: R) | Failure(error: E) {

    predicate IsFailure() {
      Failure?
    }

    function PropagateFailure<U>(): Result<U, E>
      requires Failure?
    {
      Failure(error)
    }

    function Extract(): R
      requires Success?
    {
      value
    }
  }
}
